=== FILE: README.md ===
# JestFlow text generation, modelled in Dafny

JestFlow is a VS Code extension that turns Gherkin feature files into
jest-cucumber TypeScript. Everything it writes comes from a handful of pure
string functions in `src/extension.ts`. This project models those functions
and proves properties about them. It has two entry points:

- **`extension.generateStep`** (`StepStub`). It reads the selected line and the
  line below it, trimmed. From them it builds a step-definition stub:
  - an exported method name, in which every quoted literal becomes `X` and
    every space becomes `_`;
  - the step type, which is the lower-cased first word;
  - a regular-expression text, in which every quoted literal becomes `'(.*)'`;
  - the argument list `arg0`, `arg1`, … with one argument per quoted literal,
    plus one more when the line below is a table row.
- **The save handler** (`Generator`). It runs when a `.feature` document is
  saved, and writes `<name>.feature.ts` in this order:
  - a fixed banner;
  - the boilerplate: imports relative to a computed root, the feature loader
    and the test hooks;
  - one `test('<title>', …)` block per `Scenario` line the loop reaches, whose
    body holds one call line per step line of the scenario;
  - the closing `});`.

The supporting modules are:

| module | file | contents |
|---|---|---|
| `Results` | results.dfy | `Option` and `Result` |
| `Text` | text.dfy | the JavaScript string built-ins used: `trim`, `toLowerCase`, `indexOf`, string-pattern `replace`, the anchored lazy patterns `/^.*? /` and `/^.*?test/`, one-character global replace, `String(n)` |
| `Quotes` | quotes.dfy | the global pattern `/'([^']*)'/g` as a scanner that splits text into pieces, with its inverse |
| `Lines` | lines.dfy | `getLine`, `isStepLine`, `isCommentLine`, `isTableLine`, `getStepType` |
| `StepStub` | stub.dfy | the stub command |
| `StepCall` | calls.dfy | `generateStepMethodName` |
| `Generator` | generator.dfy | `recurseWriteSteps`, the save handler's loop, `writeTestBoilerPlate` and the file as a whole |
| `Scenarios` | scenarios.dfy | two small worked documents |

Some behaviour of the code may surprise a reader who knows Gherkin. The model
follows the code:

- `And` and `But` lines do not take the previous step's keyword. The code does
  not treat them as steps at all, and one of them ends a scenario's block.
- Nothing is validated before writing starts. The handler writes lines as it
  reads them.
- A failure part-way through leaves a truncated file rather than no file.

A step walk that reads past the last line makes `document.lineAt` throw. The
model records that as `Threw`, together with the lines already written.

The fixed text the extension writes is held in constants:
- `Generator.Rule` and `Generator.Banner`: the banner of src/extension.ts:48-51.
- `Generator.Hooks`: the `beforeEach` and `afterEach` hooks of src/extension.ts:132-141.
- `Generator.Indent`: the five spaces before each call line, from src/extension.ts:84.
- `Generator.TestClosing`: the ` });` after each test, from src/extension.ts:67.
- `Generator.FileClosing`: the final `});`, from src/extension.ts:157.
- `StepStub.Placeholder`: the `X` that each quoted literal becomes in a method name, from src/extension.ts:23 and 97.

## Model

| member | source | states |
|---|---|---|
| Text.Trim | src/extension.ts:162 | The trimmed line has no whitespace at either end. It is never longer than the input. An already trimmed line comes back unchanged. |
| Text.TrimInfix | src/extension.ts:162 | `trim` keeps exactly the infix between the leading whitespace run and a trailing whitespace run. Everything it removes is whitespace. |
| Text.ToLower | src/extension.ts:104 | The result has the same length as the input, and each character is lowered on its own. |
| Text.IndexOf | src/extension.ts:62 | The result is `None` exactly when the character is absent. Otherwise it is the position of the character's first occurrence. |
| Text.Find | src/extension.ts:96 | The result is the first position where the needle occurs, and `None` only if it occurs nowhere. |
| Text.ReplaceFirst | src/extension.ts:96 | A string-pattern `replace` swaps only the first occurrence. With no occurrence the text is unchanged. |
| Text.ReplaceFirstAtStart | src/extension.ts:122 | A needle at the very start is the first occurrence, so `replace` swaps that prefix. |
| Text.ReplaceFirstKeepsOut | src/extension.ts:122 | `replace` brings in no character that neither the text nor the replacement holds. |
| Text.ReplaceFirstCases | src/extension.ts:122 | Stated with occurrences alone: a string-pattern `replace` leaves a text without the needle unchanged. Otherwise it swaps the first occurrence, wherever that is. |
| Text.ReplaceFirstDrops | src/extension.ts:122 | `replace(needle, '')` removes the needle's first occurrence and keeps the rest. A text without the needle comes back unchanged. |
| Text.ReplaceChar | src/extension.ts:23 | The global one-character replace keeps the length. Every occurrence of the character, and nothing else, is replaced. |
| Text.LazyPrefix | src/extension.ts:104 | `/^.*?needle/` matches exactly when the needle occurs with no line terminator before it. The match ends after the first such occurrence. |
| Text.LazyReplace | src/extension.ts:22 | The lazily matched prefix is replaced. With no match the text comes back unchanged. |
| Text.Decimal | src/extension.ts:28 | `String(i)` is a non-empty run of digits with no leading zero except for 0 itself. |
| Text.Join | src/extension.ts:33 | `argList.toString()`: the elements in order, separated by commas, with no separator after the last. |
| Text.DecimalRoundTrip | src/extension.ts:28 | Reading the printed digits gives back the number. |
| Text.DecimalInjective | src/extension.ts:28 | Distinct numbers print differently. |
| Quotes.Pieces | src/extension.ts:19 | The left-to-right scan of `/'([^']*)'/g`. A quote with a later quote opens a match that runs to that next quote, and scanning resumes after it. A quote with no later quote, and everything after it, matches nothing. |
| Quotes.MatchCount | src/extension.ts:19-20 | `line.match(/'([^']*)'/g)`'s length: the number of quoted pieces, and 0 for the `null` result. |
| Quotes.ReplacePairs | src/extension.ts:23-24 | `replace(/'([^']*)'/g, rep)`: every quoted piece, quotes included, becomes rep, and every other character is kept. |
| Quotes.PiecesRoundTrip | src/extension.ts:19 | The scan for `'…'` literals partitions the text. Its pieces are well formed and spell the text out again. |
| Quotes.UnparseRoundTrip | src/extension.ts:19 | Every well-formed piece sequence is what the scan makes of the text it spells out. |
| Quotes.MatchCountIsHalf | src/extension.ts:19-20 | The number of literal matches is half the number of quotes, rounded down. An odd count leaves one quote unmatched. |
| Quotes.ReplacePairsQuotes | src/extension.ts:23-24 | After every literal is replaced, the quotes left are the unmatched one plus the replacement's quotes once per match. |
| Quotes.PiecesAppend | src/extension.ts:19 | Once the quotes before a point are paired, the scan restarts there. |
| Quotes.ReplacePairsAppend | src/extension.ts:23-24 | Replacing literals distributes over a split where the quotes before it are paired. |
| Quotes.NoPairs | src/extension.ts:19-20 | Text with at most one quote has no match, and replacing literals leaves it unchanged. |
| Quotes.ReplaceOneLiteral | src/extension.ts:23-24 | A single literal in the middle of a text becomes exactly one copy of the replacement. |
| Quotes.RescanReplacement | src/extension.ts:24 | Rescanning text whose literals were replaced by another quoted body gives the same pieces, carrying that body. |
| Lines.IsStepLine | src/extension.ts:107-111 | `isStepLine`: the line starts with `Given `, `When ` or `Then `, space included. |
| Lines.IsCommentLine | src/extension.ts:113-115 | `isCommentLine`: the line starts with `#`. |
| Lines.IsTableLine | src/extension.ts:117-119 | `isTableLine`: the line starts with `\|`. |
| Lines.GetLine | src/extension.ts:161-163 | `getLine` returns a trimmed line, and a line that is already trimmed comes back as it is. |
| Lines.Keyword | src/extension.ts:107-111 | A step line starts with `Given`, `When` or `Then` followed by a space. |
| Lines.LazySpaceIsFirstSpace | src/extension.ts:104 | `/^.*? /` matches exactly when the line has a space with no line terminator before it, and it ends just after the first space. |
| Lines.StepType | src/extension.ts:103-105 | A step type exists exactly when `/^.*? /` matches. It holds no space and no ASCII upper-case letter. `None` is the case where the source throws. |
| Lines.StepTypeValue | src/extension.ts:103-105 | Whenever a step type exists, it is the text before the line's first space, trimmed and then lower-cased. |
| Text.TrimTrailingSpace | src/extension.ts:104 | A trailing space makes no difference to `trim`. |
| Lines.StepTypeOfWord | src/extension.ts:103-105 | When a line starts with a word free of whitespace followed by a space, its step type is that word in lower case. |
| Lines.StepTypeOfStepLine | src/extension.ts:103-111 | A step line's type is its keyword in lower case: `given`, `when` or `then`. |
| Lines.KeywordSpace | src/extension.ts:104-111 | A step line's first space is the one after its keyword, so its step type exists. |
| Lines.ConjunctionIsNotStep | src/extension.ts:107-119 | An `And` or `But` line is neither a step line, a table row nor a comment. |
| Lines.NoSpaceNoStepType | src/extension.ts:104 | A line with no space has no step type, so `match(...)[0]` throws. |
| StepStub.StepText | src/extension.ts:22 | The step text is what follows the first space when the step type exists, and the whole line otherwise. |
| StepStub.MethodName | src/extension.ts:23 | The method name holds no space. The only quote it can keep is an unmatched one. |
| StepStub.MethodNameEmpty | src/extension.ts:23 | Empty step text gives an empty name. |
| StepStub.MethodNameSpace | src/extension.ts:23 | A leading space becomes `_`, and the rest of the text is named on its own. |
| StepStub.MethodNameLiteral | src/extension.ts:23 | A leading quoted literal, whatever its body, becomes `X`, and the rest of the text is named on its own. |
| StepStub.MethodNameLoneQuote | src/extension.ts:23 | A quote with no partner after it stays, and only the spaces after it change, to `_`. |
| StepStub.PatternText | src/extension.ts:24 | The pattern scans into the step text's pieces with every literal's body set to `(.*)`. It has as many matches and as many quotes as the step text. |
| StepStub.ArgNames | src/extension.ts:26-29 | There are exactly n argument names, `arg0` to `arg{n-1}`, in order. |
| StepStub.ArgNamesDistinct | src/extension.ts:26-29 | No two arguments share a name. |
| StepStub.BuildStub | src/extension.ts:15-29 | A stub exists exactly when the step type does, and it has that type. It has one argument per quoted literal of the line, plus one when the next line starts with a pipe character. Its name is the method name of the step text, so it has no space and at most one quote. Its pattern is the step text with every literal's body set to `(.*)`. |
| StepStub.GenerateStep | src/extension.ts:15-35 | The command fails exactly when the selection is on the last line, since reading the line below throws, or when the line has no step type. Otherwise it returns the text of the stub built from the two trimmed lines. |
| StepStub.StubText | src/extension.ts:31-35 | The pasted text: `export const <name> = <type> => { `, then `   <type>(/<pattern>/, (<args joined by commas>) => { `, then `   }); ` and `}; `, each line ending in a newline. |
| StepStub.MethodNameIgnoresLiterals | src/extension.ts:23 | A name does not depend on what the quoted literals contain. |
| StepStub.MethodNameOfPrefix | src/extension.ts:23 | A head with no quote and no space passes through name derivation unchanged. |
| StepStub.PatternIgnoresLiterals | src/extension.ts:24 | A pattern does not depend on what the quoted literals contain. |
| StepStub.MethodNameIdempotent | src/extension.ts:23 | Deriving a name from a derived name changes nothing. |
| StepStub.PatternIdempotent | src/extension.ts:24 | Deriving a pattern from a derived pattern changes nothing. |
| StepStub.PatternKeepsOutsideText | src/extension.ts:24 | The pattern keeps every character outside a literal in place, and each literal becomes `'(.*)'`. |
| StepCall.CallText | src/extension.ts:94-101 | A call exists exactly when the step type does. It holds no space and ends in `(<step type>);`. |
| StepCall.ReplaceFirstSpace | src/extension.ts:96 | `replace(' ', …)` acts on the line's first space. |
| StepCall.DotAfterKeyword | src/extension.ts:96 | For a step line, that replacement gives the keyword, a dot and the step text. |
| StepCall.CallOfStepLine | src/extension.ts:94-101 | A step line's call is the keyword, a dot, then the same method name the stub command derives for that step, then `(<keyword in lower case>);`. |
| StepCall.CallStartsWithKeyword | src/extension.ts:94-101 | A step line's call starts with its keyword and a dot. |
| Generator.StepOutput | src/extension.ts:83-84 | The line written for a step line: five spaces, then the step's call text. |
| Generator.CallsOf | src/extension.ts:82-88 | The lines a walk writes for a run of lines: one call line per step line, in order. Table and comment lines write nothing. |
| Generator.Document | src/extension.ts:56 | The handler reads every line through `getLine`, so every line it sees is trimmed. |
| Generator.WriteSteps | src/extension.ts:79-92 | The walk starting at i either stops at an index between i and the last line, or throws. A walk started past the end throws at once. |
| Generator.WalkSpan | src/extension.ts:79-92 | A walk passes over step, table and comment lines and stops at the first line of any other kind. It throws only when there is no such line. Either way it collects the step lines it passed, in order. |
| Generator.CallsOfSteps | src/extension.ts:82-85 | For any run of lines, the call lines written are paired one to one, in order, with the run's step lines. Each is the indent followed by that step line's call text. |
| Generator.ConjunctionEndsBlock | src/extension.ts:82-91 | An `And` or `But` line ends a walk where it stands and writes nothing. |
| Generator.IsScenarioLine | src/extension.ts:61 | The loop's header test: the line starts with `Scenario`, so `Scenario Outline:` lines count too. |
| Generator.TestOpening | src/extension.ts:63 | `test('<title>', ({ given, when, then }) => {`. |
| Generator.TitleStart | src/extension.ts:62 | The title starts just after the first colon, or at the start of the line when there is no colon (`indexOf` gives -1). |
| Generator.Title | src/extension.ts:62 | The title is trimmed and no longer than the line. |
| Generator.TitleIsTail | src/extension.ts:62 | The title is what follows the first colon, with the whitespace around it removed. |
| Generator.TitleOfHeader | src/extension.ts:61-62 | The title of `Scenario:` followed by whitespace and a trimmed name is that name. |
| Generator.BlockAt | src/extension.ts:61-67 | A block records its `Scenario` line's index and text. When its walk stops, it stops at a later line of the document. |
| Generator.BlockWalk | src/extension.ts:79-92 | When a block's walk stops at line e, every line between the header and e is a step, table or comment line, and line e is of another kind. The block's steps are the step lines in between, in order. When the walk throws, every line after the header is of those kinds, and the steps are all the step lines after the header. |
| Generator.Scan | src/extension.ts:55-70 | Every block the loop opens has a header before the last line, which the loop never examines. |
| Generator.ScanPasses | src/extension.ts:55-61 | A comment, or a line not starting with `Scenario`, is passed over. |
| Generator.ScanOpens | src/extension.ts:61-68 | A `Scenario` line opens a block. The loop resumes one past the line that ended the block's walk, or stops if the walk threw. |
| Generator.ScanBlocks | src/extension.ts:55-70 | Every block is the block of a `Scenario` line of the document. |
| Generator.ScanOrdered | src/extension.ts:55-70 | Blocks come in document order. Each one ends before the next starts, and only the last can have thrown. |
| Generator.ScanHeaders | src/extension.ts:55-70 | A line heads a block exactly when it is a `Scenario` line before the last line that no earlier block covers. The `Scenario` line that ended a walk is covered, so that scenario gets no test. |
| Generator.OnlyLastThrows | src/extension.ts:65 | In document order, a walk that threw can only be the last one. |
| Generator.FeaturePath | src/extension.ts:130 | The loader path replaces the shortest prefix ending in `test` with `./test`. A path without `test` is unchanged. |
| Generator.Normalised | src/extension.ts:122 | The normalised path is as long as the relative path. Each backslash becomes `/` and every other character is kept, so no backslash remains. |
| Generator.ImportRoot | src/extension.ts:122 | The import root holds no backslash. It is the normalised path with its first `../` removed, wherever that occurs. A path without `../` is kept as it is. |
| Generator.Imports | src/extension.ts:123-129 | The five import lines, four of them under the import root, then a blank line. |
| Generator.Import | src/extension.ts:123-128 | `import <what> from '<from>';`. |
| Generator.Loader | src/extension.ts:130-132 | `const feature = loadFeature('<path>');`, a blank line, then the line opening `defineFeature`. |
| Generator.Boilerplate | src/extension.ts:121-142 | `writeTestBoilerPlate`: the imports under the import root, the loader for the feature path, then the hooks. |
| Generator.Head | src/extension.ts:48-53 | Everything written before the first test: the banner, then the boilerplate. |
| Generator.GenerateFile | src/extension.ts:47-73 | The file begins with the banner and boilerplate. Generation throws exactly when a step walk reads past the last line. A completed file ends with `});`. FileTest and FileLayout state what lies between. |
| Generator.FileOf | src/extension.ts:55-72 | The same three facts as GenerateFile, for any head and trimmed document. |
| Generator.Assemble | src/extension.ts:55-72 | The file keeps the head as a prefix. It throws exactly when a block's walk threw, and otherwise it ends in `});`. AssembleTest and AssembleLayout state what lies between. |
| Generator.OnSave | src/extension.ts:42-46 | Only a `.feature` document produces output. The target is the file name with `.ts` appended, so it ends in `.feature.ts`. The output is the generated file. |
| Generator.FeatureTarget | src/extension.ts:43-46 | A name ending in `.feature` with `.ts` appended ends in `.feature.ts`. |
| Generator.SectionOf | src/extension.ts:61-68 | What one block writes: its title, the calls of its steps, and whether ` });` and a blank line follow, which they do when its walk stopped. |
| Generator.RenderSection | src/extension.ts:63-68 | A section's lines: the opening, the calls and, if it is closed, ` });` and a blank line. |
| Generator.Render | src/extension.ts:55-70 | The lines of all sections, in order. |
| Generator.Emit | src/extension.ts:55-72 | The lines after the head are the sections, then `});` unless a walk threw. The head stays a prefix, the result throws exactly when told so, and a completed file ends in `});`. |
| Generator.RenderedShape | src/extension.ts:63-68 | A test found at a line is the opening with its title, then one call per step, in order, then ` });` and a blank line when the test is closed. |
| Generator.SectionCalls | src/extension.ts:63-85 | A block's test has one call per step line of the block, paired in order. The test is one line longer than that, plus two when the block closes. |
| Generator.SectionShape | src/extension.ts:63-85 | A block's rendered section, found at a line, is the block's test: its title, one call per step, in order, then the closing lines when the block closed. |
| Generator.AssembleSection | src/extension.ts:55-70 | The assembled file holds the section of block k at its offset. |
| Generator.AssembleTest | src/extension.ts:55-68 | The test of block k sits at its offset: the opening with the block's title, one call per step, in order, then ` });` and a blank line when the block's walk stopped. |
| Generator.AssembleLayout | src/extension.ts:47-72 | The first test starts right after the head. Each test starts where the one before ends. After the last one only the closing `});` follows, unless a walk threw. |
| Generator.FileTest | src/extension.ts:61-92 | For the k-th block the loop finds, the file holds, at its offset, `test('<title>', …` with the `Scenario` line's title. After it comes one call per step line between that line and the line that stopped the walk, in document order. Then ` });` and a blank line follow, unless the walk ran off the document. |
| Generator.FileOfTest | src/extension.ts:55-68 | The same placement as FileTest, for any head and trimmed document. |
| Generator.FileLayout | src/extension.ts:47-72 | The generated file is the banner and boilerplate, then the tests back to back in block order, then `});` unless generation threw. Nothing else is written. |
| Generator.FileOfLayout | src/extension.ts:55-72 | The same layout as FileLayout, for any head and trimmed document. |
| Generator.HeadOpenings | src/extension.ts:48-53 | No line of the banner or the boilerplate opens a test. |
| Generator.FileOpenings | src/extension.ts:63 | The file opens exactly one test per block the loop found. |
| Generator.HeadClosings | src/extension.ts:121-142 | The boilerplate holds exactly two ` });` lines, the ones closing the hooks. |
| Generator.SectionsClosed | src/extension.ts:65-67 | Every block is closed except a last one whose walk threw. |
| Generator.AssembleClosings | src/extension.ts:63-67 | Each block that did not throw adds exactly one ` });` to the head's. |
| Generator.FileClosings | src/extension.ts:67 | The file holds two ` });` lines plus one per block, minus one when generation threw. |
| Scenarios.AdjacentScenarioIsSkipped | src/extension.ts:61-70 | In the worked document `Scenario: a`, `Given b`, `Scenario: c`, `Given d`, "", the second `Scenario` line ends the first walk. The loop then steps past it, so that scenario gets no test. |
| Scenarios.TrailingStepThrows | src/extension.ts:79-85 | In the worked document `Scenario: a`, `Given b`, the loop finds one block, whose walk collects `Given b` and then reads past the last line, so the walk throws. |

## Left out

- The VS Code host is not modelled: command registration, the active-editor check and its error message, the information message, and the subscription list.
- The clipboard copy is left out. The stub command's result is the text that would be copied.
- The file stream is left out: creating it, its `'open'` event, its error handler and `end`. The output is the sequence of lines passed to `writeToFileStream`, each of which the stream ends with a newline.
- Node's `path.relative` is a function parameter of `ImportRoot`. Its own behaviour is not modelled.
- The document's URI path and file name are inputs. `document.lineAt` on an index past the end is modelled as a throw, and the lines written up to that point are kept.
- Lines.StepType: the step type is free only of ASCII upper-case letters, because `Text.ToLower` lowers only those.
- Text.ToLower: lower-cases only ASCII letters. JavaScript's `toLowerCase` also maps non-ASCII letters. The model's properties are only about spaces, quotes and ASCII keywords.
- Characters are Dafny code points, whereas JavaScript strings are UTF-16. Indices and lengths therefore differ for characters outside the Basic Multilingual Plane. No property here depends on that difference.
- `deactivate` is left out because it does nothing.

=== FILE: calls.dfy ===
/** `generateStepMethodName`: the call a generated test makes for one step line. */
module StepCall {
  import opened Results
  import opened Text
  import opened Quotes
  import opened Lines
  import opened StepStub

  /**
   * The first space becomes `.`, then the line goes through the same name
   * derivation as a stub (literals to `X`, spaces to `_`), and
   * `(<step type>);` is appended. `None` where `getStepType` throws.
   */
  function CallText(line: string): (r: Option<string>)
    ensures r.Some? <==> StepType(line).Some?
    ensures r.Some? ==> ' ' !in r.value
    ensures r.Some? ==> EndsWith(r.value, "(" + StepType(line).value + ");")
  {
    match StepType(line)
    case None => None
    case Some(t) =>
      var name := MethodName(ReplaceFirst(line, " ", "."));
      var tail := "(" + t + ");";
      CallShape(name, t);
      Some(name + tail)
  }

  lemma CallShape(name: string, t: string)
    requires ' ' !in name && ' ' !in t
    ensures ' ' !in name + ("(" + t + ");")
    ensures EndsWith(name + ("(" + t + ");"), "(" + t + ");")
  {
    NotInAppend("(" + t, ");", ' ');
    NotInAppend("(", t, ' ');
    NotInAppend(name, "(" + t + ");", ' ');
    EndsWithAppend(name, "(" + t + ");");
  }

  /** A string-pattern replace of `" "` acts on the first space. */
  lemma ReplaceFirstSpace(l: string, n: nat, rep: string)
    requires n < |l| && l[n] == ' ' && ' ' !in l[..n]
    ensures ReplaceFirst(l, " ", rep) == l[..n] + rep + l[n + 1..]
  {
    OccursSpace(l, n);
    forall j | 0 <= j < n
      ensures !OccursAt(l, " ", j)
    {
      OccursSpace(l, j);
      assert l[..n][j] == l[j];
    }
    assert Find(l, " ") == Some(n);
  }

  /** Replacing the first space of a step line with a dot leaves keyword, dot, step text. */
  lemma DotAfterKeyword(l: string)
    requires IsStepLine(l)
    ensures ReplaceFirst(l, " ", ".") == Keyword(l) + "." + StepText(l)
  {
    var k := Keyword(l);
    var n := |k|;
    KeywordSpace(l);
    assert StepText(l) == l[n + 1..];
    assert l[..n] == k by {
      assert k + " " <= l;
    }
    ReplaceFirstSpace(l, n, ".");
  }

  /**
   * For a step line the call is the keyword's namespace, a dot, the very name
   * the stub command exports for that step, and the lower-cased keyword as
   * the argument.
   */
  lemma CallOfStepLine(l: string)
    requires IsStepLine(l)
    ensures CallText(l) == Some(Keyword(l) + "." + MethodName(StepText(l)) + ("(" + ToLower(Keyword(l)) + ");"))
  {
    CallTextOfStepLine(l);
    DottedName(l);
  }

  lemma CallTextOfStepLine(l: string)
    requires IsStepLine(l)
    ensures CallText(l) == Some(MethodName(ReplaceFirst(l, " ", ".")) + ("(" + ToLower(Keyword(l)) + ");"))
  {
    StepTypeOfStepLine(l);
  }

  lemma DottedName(l: string)
    requires IsStepLine(l)
    ensures MethodName(ReplaceFirst(l, " ", ".")) == Keyword(l) + "." + MethodName(StepText(l))
  {
    var head := Keyword(l) + ".";
    DotAfterKeyword(l);
    KeywordHeadIsPlain(Keyword(l));
    MethodNameOfPrefix(head, StepText(l));
  }

  lemma KeywordHeadIsPlain(k: string)
    requires k == "Given" || k == "When" || k == "Then"
    ensures Quote !in k + "." && ' ' !in k + "."
  {
  }

  /** The call line starts with the keyword and a dot. */
  lemma CallStartsWithKeyword(l: string)
    requires IsStepLine(l)
    ensures CallText(l).Some? && Keyword(l) + "." <= CallText(l).value
  {
    CallOfStepLine(l);
    var k := Keyword(l);
    PrefixOfConcat(k + ".", MethodName(StepText(l)) + ("(" + ToLower(k) + ");"));
  }
}

=== FILE: generator.dfy ===
/**
 * The save handler: a whole jest-cucumber test file generated from a feature
 * document, as the sequence of lines handed to the output stream.
 */
module Generator {
  import opened Results
  import opened Text
  import opened Lines
  import opened StepCall

  // ---------------------------------------------------------------------------
  // Step blocks: `recurseWriteSteps`.

  /** The indentation of a step call inside a test block. */
  const Indent: string := "     "

  /** Lines that `recurseWriteSteps` walks over. */
  predicate InBlock(l: string) {
    IsStepLine(l) || IsTableLine(l) || IsCommentLine(l)
  }

  /** A line written inside a test block: it starts with the indentation. */
  type CallLine = s: string | Indent <= s witness Indent

  /** The output line for one step line. */
  function StepOutput(l: string): CallLine
    requires IsStepLine(l)
  {
    StepTypeOfStepLine(l);
    PrefixOfConcat(Indent, CallText(l).value);
    Indent + CallText(l).value
  }

  /** The calls written for a run of lines: one per step line, in order; other lines give nothing. */
  function CallsOf(ls: seq<string>): seq<CallLine>
  {
    if ls == [] then []
    else if IsStepLine(ls[0]) then [StepOutput(ls[0])] + CallsOf(ls[1..])
    else CallsOf(ls[1..])
  }

  /** The call written for a step line: the indent followed by the line's call text. */
  predicate CallOf(step: string, call: string) {
    Indent <= call && CallText(step) == Some(call[|Indent|..])
  }

  /** xs and ys have the same length and are related by r place by place. */
  predicate Pairwise<A, B>(r: (A, B) -> bool, xs: seq<A>, ys: seq<B>) {
    |xs| == |ys| && forall k :: 0 <= k < |xs| ==> r(xs[k], ys[k])
  }

  lemma PairwiseCons<A, B>(r: (A, B) -> bool, x: A, y: B, xs: seq<A>, ys: seq<B>)
    requires r(x, y) && Pairwise(r, xs, ys)
    ensures Pairwise(r, [x] + xs, [y] + ys)
  {
    forall k | 0 < k < |xs| + 1
      ensures r(([x] + xs)[k], ([y] + ys)[k])
    {
      assert ([x] + xs)[k] == xs[k - 1] && ([y] + ys)[k] == ys[k - 1];
    }
  }

  /** One indented call per step line of the run, in order, each that line's call text. */
  lemma {:induction false} CallsOfSteps(ls: seq<string>)
    ensures Pairwise<string, string>(CallOf, StepLines(ls), CallsOf(ls))
  {
    if ls != [] {
      CallsOfSteps(ls[1..]);
      if IsStepLine(ls[0]) {
        StepOutputTail(ls[0]);
        PairwiseCons<string, string>(CallOf, ls[0], StepOutput(ls[0]), StepLines(ls[1..]), CallsOf(ls[1..]));
      }
    }
  }

  lemma StepOutputTail(l: string)
    requires IsStepLine(l)
    ensures CallOf(l, StepOutput(l))
  {
    StepTypeOfStepLine(l);
  }

  /** The document as `getLine` reads it: every line trimmed. */
  function Document(doc: seq<string>): (ls: seq<string>)
    ensures |ls| == |doc|
    ensures forall k :: 0 <= k < |doc| ==> ls[k] == GetLine(doc, k)
  {
    seq(|doc|, k requires 0 <= k < |doc| => GetLine(doc, k))
  }

  /** How a step walk ends: at a line of another kind, or by reading past the last line. */
  datatype Walk =
    | Stopped(steps: seq<string>, next: nat)
    | RanOff(steps: seq<string>)  // `lineAt` throws: the calls of these steps were written before the exception

  /**
   * `recurseWriteSteps` from line i of the trimmed lines: it passes over step,
   * table and comment lines, writing one call per step line, and returns the
   * index of the first line of any other kind. Reading a line past the end
   * throws.
   */
  function WriteSteps(ls: seq<string>, i: nat): (w: Walk)
    decreases |ls| - i
    ensures i >= |ls| ==> w == RanOff([])
    ensures w.Stopped? ==> i <= w.next < |ls|
  {
    if i >= |ls| then RanOff([])
    else
      var line := ls[i];
      if IsStepLine(line) then
        match WriteSteps(ls, i + 1)
        case Stopped(ss, n) => Stopped([line] + ss, n)
        case RanOff(ss) => RanOff([line] + ss)
      else if IsTableLine(line) || IsCommentLine(line) then WriteSteps(ls, i + 1)
      else Stopped([], i)
  }

  /**
   * A walk stops at the first line that is not a step, table or comment line,
   * and throws only if there is none; either way it collects the step lines it
   * passed, in order, and a call is written for each.
   */
  lemma {:induction false} WalkSpan(ls: seq<string>, i: nat)
    requires i <= |ls|
    ensures var w := WriteSteps(ls, i);
      && (w.Stopped? ==> !InBlock(ls[w.next]))
      && (w.Stopped? ==> forall k :: i <= k < w.next ==> InBlock(ls[k]))
      && (w.Stopped? ==> w.steps == StepLines(ls[i..w.next]))
      && (w.RanOff? ==> forall k :: i <= k < |ls| ==> InBlock(ls[k]))
      && (w.RanOff? ==> w.steps == StepLines(ls[i..]))
    decreases |ls| - i
  {
    if i < |ls| {
      var line := ls[i];
      if InBlock(line) {
        WalkSpan(ls, i + 1);
        var w := WriteSteps(ls, i + 1);
        if w.Stopped? {
          assert ls[i..w.next] == [line] + ls[i + 1..w.next];
        } else {
          assert ls[i..] == [line] + ls[i + 1..];
        }
      }
    }
  }

  /** An `And` or `But` line ends a step block where it stands, writing nothing for it. */
  lemma ConjunctionEndsBlock(ls: seq<string>, i: nat)
    requires i < |ls|
    requires "And " <= ls[i] || "But " <= ls[i]
    ensures WriteSteps(ls, i) == Stopped([], i)
  {
    ConjunctionIsNotStep(ls[i]);
  }

  /** The step lines of a run of lines, in order. */
  function StepLines(ls: seq<string>): (r: seq<string>)
    ensures forall k :: 0 <= k < |r| ==> IsStepLine(r[k])
  {
    if ls == [] then []
    else if IsStepLine(ls[0]) then [ls[0]] + StepLines(ls[1..])
    else StepLines(ls[1..])
  }

  // ---------------------------------------------------------------------------
  // Scenarios: the save handler's loop.

  /** The header test of the loop: any line starting with `Scenario`, `Scenario Outline:` included. */
  predicate IsScenarioLine(l: string) {
    "Scenario" <= l
  }

  /**
   * Where `currentLine.substr(currentLine.indexOf(":") + 1)` starts: just after
   * the first colon, or at 0 when there is none, as `indexOf` then gives -1.
   */
  function TitleStart(line: string): (n: nat)
    ensures n <= |line|
    ensures ':' !in line ==> n == 0
    ensures ':' in line ==> 1 <= n && line[n - 1] == ':' && ':' !in line[..n - 1]
  {
    match IndexOf(line, ':')
    case None => 0
    case Some(c) => c + 1
  }

  /** The scenario title: the text from `TitleStart`, trimmed. */
  function Title(line: string): (r: string)
    ensures IsTrimmed(r)
    ensures |r| <= |line|
  {
    Trim(line[TitleStart(line)..])
  }

  /** The title is what follows the first colon, or the whole line when there is none, less the whitespace around it. */
  lemma TitleIsTail(line: string)
    ensures var tail := line[TitleStart(line)..];
      WhitespaceAround(tail, Lead(tail), Title(line))
  {
    TrimInfix(line[TitleStart(line)..]);
  }

  /** A header `Scenario:` followed by whitespace and a trimmed name has that name as its title. */
  lemma TitleOfHeader(gap: string, name: string)
    requires forall i :: 0 <= i < |gap| ==> IsWhitespace(gap[i])
    requires IsTrimmed(name)
    ensures Title("Scenario:" + gap + name) == name
  {
    var line := "Scenario:" + gap + name;
    assert line[8] == ':';
    assert ':' !in line[..8];
    assert IndexOf(line, ':') == Some(8) by {
      var f := IndexOf(line, ':');
      assert f.Some? by { assert line[8] in line; }
      forall k | 0 <= k < f.value
        ensures line[k] != ':'
      {
        assert line[..f.value][k] == line[k];
      }
    }
    var after := line[9..];
    assert after == gap + name;
    TrimGap(gap, name);
  }

  lemma {:induction false} TrimGap(gap: string, name: string)
    requires forall i :: 0 <= i < |gap| ==> IsWhitespace(gap[i])
    requires IsTrimmed(name)
    ensures Trim(gap + name) == name
  {
    if gap == [] {
      assert gap + name == name;
    } else {
      assert (gap + name)[1..] == gap[1..] + name;
      TrimGap(gap[1..], name);
      assert TrimStart(gap + name) == TrimStart(gap[1..] + name);
    }
  }

  /** The line that opens one scenario's test. */
  function TestOpening(title: string): string {
    "test('" + title + "', ({ given, when, then }) => {"
  }

  const TestClosing: string := " });"

  /**
   * The walk from the line after h stopped at line e: every line in between
   * is a step, table or comment line, e is not, and steps are the step lines
   * in between, in order.
   */
  predicate StoppedAt(ls: seq<string>, h: nat, steps: seq<string>, e: nat) {
    h < e < |ls| && !InBlock(ls[e])
    && (forall k :: h < k < e ==> InBlock(ls[k]))
    && steps == StepLines(ls[h + 1..e])
  }

  /**
   * The walk from the line after h read past the last line: every line after h
   * is a step, table or comment line, and steps are the step lines after h.
   */
  predicate RanOffAfter(ls: seq<string>, h: nat, steps: seq<string>) {
    h < |ls|
    && (forall k :: h < k < |ls| ==> InBlock(ls[k]))
    && steps == StepLines(ls[h + 1..])
  }

  /**
   * What the loop found for one `Scenario` line: its index and text, the step
   * lines its walk passed, and the line that ended the walk, or `None` if the
   * walk threw.
   */
  datatype Block = Block(header: nat, heading: string, steps: seq<string>, end: Option<nat>)

  function BlockAt(ls: seq<string>, h: nat): (b: Block)
    requires h < |ls|
    ensures b.header == h && b.heading == ls[h]
    ensures b.end.Some? ==> h < b.end.value < |ls|
  {
    match WriteSteps(ls, h + 1)
    case Stopped(cs, n) => Block(h, ls[h], cs, Some(n))
    case RanOff(cs) => Block(h, ls[h], cs, None)
  }

  /**
   * A block's walk starts on the line after its header. It stops at the first
   * line after the header that is not a step, table or comment line, or reads
   * past the last line when there is none, and it holds the step lines passed.
   */
  lemma BlockWalk(ls: seq<string>, h: nat)
    requires h < |ls|
    ensures var b := BlockAt(ls, h);
      && (b.end.Some? ==> StoppedAt(ls, h, b.steps, b.end.value))
      && (b.end.None? ==> RanOffAfter(ls, h, b.steps))
  {
    WalkSpan(ls, h + 1);
  }

  /**
   * The loop `for (lineNumber = ln; lineNumber < lineCount - 1; lineNumber++)`:
   * comment lines are passed over; a `Scenario` line gets a block, and the loop
   * resumes one past the line that ended the block's step walk; a walk that
   * throws ends the loop.
   */
  function Scan(ls: seq<string>, ln: nat): (bs: seq<Block>)
    decreases |ls| - ln
    ensures forall k :: 0 <= k < |bs| ==> ln <= bs[k].header < |ls| - 1
  {
    if ln >= |ls| - 1 then []
    else
      var line := ls[ln];
      if IsCommentLine(line) then Scan(ls, ln + 1)
      else if IsScenarioLine(line) then
        var b := BlockAt(ls, ln);
        match b.end
        case None => [b]
        case Some(n) => [b] + Scan(ls, n + 1)
      else Scan(ls, ln + 1)
  }

  /** The loop passes over a line that is a comment or does not start with `Scenario`. */
  lemma ScanPasses(ls: seq<string>, ln: nat)
    requires ln < |ls| - 1 && (IsCommentLine(ls[ln]) || !IsScenarioLine(ls[ln]))
    ensures Scan(ls, ln) == Scan(ls, ln + 1)
  {
  }

  /** At a `Scenario` line the loop writes a block and resumes after the line that ended its walk. */
  lemma ScanOpens(ls: seq<string>, ln: nat)
    requires ln < |ls| - 1 && IsScenarioLine(ls[ln])
    ensures var b := BlockAt(ls, ln);
      Scan(ls, ln) == if b.end.None? then [b] else [b] + Scan(ls, b.end.value + 1)
  {
    assert !IsCommentLine(ls[ln]) by { assert ls[ln][0] == 'S'; }
  }

  /** Each block is the block of a `Scenario` line. */
  predicate BlocksOf(ls: seq<string>, bs: seq<Block>) {
    forall k :: 0 <= k < |bs| ==> bs[k].header < |ls| && IsScenarioLine(ls[bs[k].header]) && bs[k] == BlockAt(ls, bs[k].header)
  }

  /** Blocks come in document order: every block but the last ends before the next one starts. */
  predicate Ordered(bs: seq<Block>) {
    forall k :: 0 <= k < |bs| - 1 ==> bs[k].end.Some? && bs[k].end.value < bs[k + 1].header
  }

  lemma BlocksOfCons(ls: seq<string>, b: Block, rest: seq<Block>)
    requires b.header < |ls| && IsScenarioLine(ls[b.header]) && b == BlockAt(ls, b.header)
    requires BlocksOf(ls, rest)
    ensures BlocksOf(ls, [b] + rest)
  {
    var bs := [b] + rest;
    forall k | 0 < k < |bs|
      ensures bs[k] == rest[k - 1]
    {
    }
  }

  lemma OrderedCons(b: Block, rest: seq<Block>)
    requires b.end.Some? && forall k :: 0 <= k < |rest| ==> b.end.value + 1 <= rest[k].header
    requires Ordered(rest)
    ensures Ordered([b] + rest)
  {
    var bs := [b] + rest;
    forall k | 0 <= k < |bs| - 1
      ensures bs[k].end.Some? && bs[k].end.value < bs[k + 1].header
    {
      assert bs[k + 1] == rest[k];
      if k > 0 {
        assert bs[k] == rest[k - 1];
      }
    }
  }

  lemma {:induction false} ScanBlocks(ls: seq<string>, ln: nat)
    ensures BlocksOf(ls, Scan(ls, ln))
    decreases |ls| - ln
  {
    if ln < |ls| - 1 {
      if IsCommentLine(ls[ln]) || !IsScenarioLine(ls[ln]) {
        ScanPasses(ls, ln);
        ScanBlocks(ls, ln + 1);
      } else {
        ScanOpens(ls, ln);
        var b := BlockAt(ls, ln);
        if b.end.Some? {
          ScanBlocks(ls, b.end.value + 1);
          BlocksOfCons(ls, b, Scan(ls, b.end.value + 1));
        }
      }
    }
  }

  lemma {:induction false} ScanOrdered(ls: seq<string>, ln: nat)
    ensures Ordered(Scan(ls, ln))
    decreases |ls| - ln
  {
    if ln < |ls| - 1 {
      if IsCommentLine(ls[ln]) || !IsScenarioLine(ls[ln]) {
        ScanPasses(ls, ln);
        ScanOrdered(ls, ln + 1);
      } else {
        ScanOpens(ls, ln);
        var b := BlockAt(ls, ln);
        if b.end.Some? {
          var rest := Scan(ls, b.end.value + 1);
          ScanOrdered(ls, b.end.value + 1);
          assert forall k :: 0 <= k < |rest| ==> b.end.value + 1 <= rest[k].header;
          OrderedCons(b, rest);
        }
      }
    }
  }

  predicate HasHeader(bs: seq<Block>, j: nat) {
    exists k :: 0 <= k < |bs| && bs[k].header == j
  }

  /** Line j falls inside a block: after its header, up to and including the line that ended its walk. */
  predicate Covered(bs: seq<Block>, j: nat) {
    exists k :: 0 <= k < |bs| && bs[k].header < j && (bs[k].end.None? || j <= bs[k].end.value)
  }

  /**
   * The loop opens a test exactly at the `Scenario` lines before the last line
   * that no earlier block covers. A `Scenario` line right after a step walk,
   * the line that ended it, is covered, and so is everything after a walk that
   * threw.
   */
  lemma {:induction false} ScanHeaders(ls: seq<string>, ln: nat, j: nat)
    requires ln <= j
    ensures HasHeader(Scan(ls, ln), j) <==>
      j < |ls| - 1 && IsScenarioLine(ls[j]) && !Covered(Scan(ls, ln), j)
    decreases |ls| - ln
  {
    var bs := Scan(ls, ln);
    if ln >= |ls| - 1 {
    } else {
      var line := ls[ln];
      if IsCommentLine(line) || !IsScenarioLine(line) {
        if j == ln {
          assert !IsScenarioLine(line) by { if IsCommentLine(line) { assert line[0] == '#'; } }
          assert !HasHeader(bs, j);
        } else {
          ScanHeaders(ls, ln + 1, j);
        }
      } else {
        var b := BlockAt(ls, ln);
        match b.end
        case None =>
          assert bs == [b];
          if j == ln {
            assert bs[0].header == j;
          } else {
            assert bs[0].header < j;
          }
        case Some(n) =>
          var rest := Scan(ls, n + 1);
          assert bs == [b] + rest;
          if n + 1 <= j {
            ScanHeaders(ls, n + 1, j);
          }
          ScanHeadersStep(ls, ln, n, j, b, rest, bs);
      }
    }
  }

  lemma ScanHeadersStep(ls: seq<string>, ln: nat, n: nat, j: nat, b: Block, rest: seq<Block>, bs: seq<Block>)
    requires ln <= j && ln < |ls| - 1
    requires b == BlockAt(ls, ln) && b.end == Some(n) && IsScenarioLine(ls[ln])
    requires rest == Scan(ls, n + 1) && bs == [b] + rest
    requires n + 1 <= j ==> (HasHeader(rest, j) <==>
      j < |ls| - 1 && IsScenarioLine(ls[j]) && !Covered(rest, j))
    ensures HasHeader(bs, j) <==> j < |ls| - 1 && IsScenarioLine(ls[j]) && !Covered(bs, j)
    decreases |ls| - ln, 0
  {
    if j == ln {
      assert bs[0].header == j;
      assert !Covered(bs, j) by {
        forall k | 0 <= k < |bs|
          ensures !(bs[k].header < j)
        {
          if k > 0 {
            assert bs[k] == rest[k - 1];
          }
        }
      }
    } else if j <= n {
      assert Covered(bs, j) by { assert bs[0].header < j && j <= n; }
      assert !HasHeader(bs, j) by {
        forall k | 0 <= k < |bs|
          ensures bs[k].header != j
        {
          if k > 0 {
            assert bs[k] == rest[k - 1];
          }
        }
      }
    } else {
      ShiftHeader(b, rest, bs, j);
      ShiftCovered(b, rest, bs, j);
    }
  }

  lemma ShiftHeader(b: Block, rest: seq<Block>, bs: seq<Block>, j: nat)
    requires bs == [b] + rest && b.header < j
    ensures HasHeader(bs, j) <==> HasHeader(rest, j)
  {
    if HasHeader(rest, j) {
      var k :| 0 <= k < |rest| && rest[k].header == j;
      assert bs[k + 1] == rest[k];
    }
    if HasHeader(bs, j) {
      var k :| 0 <= k < |bs| && bs[k].header == j;
      assert bs[k] == rest[k - 1];
    }
  }

  lemma ShiftCovered(b: Block, rest: seq<Block>, bs: seq<Block>, j: nat)
    requires bs == [b] + rest && b.end.Some? && b.end.value < j
    ensures Covered(bs, j) <==> Covered(rest, j)
  {
    if Covered(rest, j) {
      var k :| 0 <= k < |rest| && rest[k].header < j && (rest[k].end.None? || j <= rest[k].end.value);
      assert bs[k + 1] == rest[k];
    }
    if Covered(bs, j) {
      var k :| 0 <= k < |bs| && bs[k].header < j && (bs[k].end.None? || j <= bs[k].end.value);
      assert bs[k] == rest[k - 1];
    }
  }

  // ---------------------------------------------------------------------------
  // The file.

  /** The fixed banner, with the blank line after it. */
  const Banner: seq<string> := [Rule, "// " + "Auto Generated Content (Do not edit)" + " //", Rule, ""]

  /** The banner's top and bottom line: 42 slashes, as wide as its middle line. */
  const Rule: string := "//////////////////////////////////////////"

  /** The loader path: the shortest prefix of the document's path that ends in `test` becomes `./test`. */
  function FeaturePath(uriPath: string): (r: string)
    ensures LazyPrefix(uriPath, "test").None? ==> r == uriPath
    ensures LazyPrefix(uriPath, "test").Some? ==> "./test" <= r && r[6..] == uriPath[LazyPrefix(uriPath, "test").value..]
  {
    LazyReplace(uriPath, "test", "./test")
  }

  /**
   * The path the import root starts from: the host's `path.relative` (a
   * parameter here) from the document path rebased on `/test` to `/test`, with
   * backslashes turned into slashes.
   */
  function Normalised(uriPath: string, relative: (string, string) -> string): (n: string)
    ensures '\\' !in n
    ensures var p := relative(LazyReplace(uriPath, "test", "/test"), "/test");
      |n| == |p| && forall i :: 0 <= i < |p| ==> n[i] == (if p[i] == '\\' then '/' else p[i])
  {
    ReplaceChar(relative(LazyReplace(uriPath, "test", "/test"), "/test"), '\\', '/')
  }

  /** The import root: the normalised path with its first `../` dropped, wherever it occurs. */
  function ImportRoot(uriPath: string, relative: (string, string) -> string): (r: string)
    ensures '\\' !in r
    ensures var n := Normalised(uriPath, relative);
      "../" <= n ==> r == n[3..]
    ensures DropsFirst(Normalised(uriPath, relative), "../", r)
  {
    var n := Normalised(uriPath, relative);
    ReplaceFirstKeepsOut(n, "../", "", '\\');
    ReplaceFirstDrops(n, "../");
    if "../" <= n then ReplaceFirstAtStart(n, "../", ""); ReplaceFirst(n, "../", "")
    else ReplaceFirst(n, "../", "")
  }

  /** The import lines of the boilerplate, all relative to the import root. */
  function Imports(root: string): seq<string> {
    [
      Import("{ defineFeature, loadFeature }", "jest-cucumber"),
      Import("{ TestHooks }", root + "/configuration/TestHooks"),
      Import("* as Given", root + "/steps/given-steps"),
      Import("* as When", root + "/steps/when-steps"),
      Import("* as Then", root + "/steps/then-steps"),
      ""
    ]
  }

  /** `import <what> from '<from>';` */
  function Import(what: string, from: string): string {
    "import " + what + " from '" + from + "';"
  }

  /** The feature loader and the opening of `defineFeature`. */
  function Loader(path: string): seq<string> {
    [
      "const feature = loadFeature('" + path + "');",
      "",
      "defineFeature(feature, test => {"
    ]
  }

  /** The test hooks every generated file registers. */
  const Hooks: seq<string> := [
    " beforeEach(() => {",
    "     TestHooks.BeforeEach();",
    " });",
    "",
    " afterEach(async () => {",
    "     TestHooks.AfterEach();",
    " });",
    "",
    ""
  ]

  /** `writeTestBoilerPlate`: imports, the feature loader and the test hooks. */
  function Boilerplate(uriPath: string, relative: (string, string) -> string): seq<string> {
    Imports(ImportRoot(uriPath, relative)) + Loader(FeaturePath(uriPath)) + Hooks
  }

  /** Everything written before the first test: the banner, then the boilerplate. */
  function Head(uriPath: string, relative: (string, string) -> string): seq<string> {
    Banner + Boilerplate(uriPath, relative)
  }

  /** `saveGeneratedFeatureToDisk`'s line, closing `defineFeature`. */
  const FileClosing: string := "});"

  /** What one block renders as: a titled test with its calls, closed unless its walk threw. */
  datatype Section = Section(title: string, calls: seq<CallLine>, closed: bool)

  function SectionOf(b: Block): Section {
    Section(Title(b.heading), CallsOf(b.steps), b.end.Some?)
  }

  /** One section per block, in order. */
  function Sections(bs: seq<Block>): (ss: seq<Section>)
    ensures |ss| == |bs|
  {
    if bs == [] then [] else [SectionOf(bs[0])] + Sections(bs[1..])
  }

  /** The lines of one section: the opening, the calls and, if closed, the closing and a blank line. */
  function RenderSection(s: Section): seq<string> {
    [TestOpening(s.title)] + s.calls + (if s.closed then [TestClosing, ""] else [])
  }

  /** The lines of all sections, in order. */
  function Render(ss: seq<Section>): seq<string> {
    ConcatMap(RenderSection, ss)
  }

  /** The runs f gives for the elements of xs, one after another. */
  function ConcatMap<A>(f: A -> seq<string>, xs: seq<A>): seq<string> {
    if xs == [] then [] else f(xs[0]) + ConcatMap(f, xs[1..])
  }

  /** The output of a save: every line written, and whether the handler got to its end. */
  datatype Emitted =
    | Completed(lines: seq<string>)
    | Threw(lines: seq<string>)  // a step walk read past the last line

  /** Some block's step walk read past the last line. */
  predicate WalkThrew(bs: seq<Block>) {
    exists k :: 0 <= k < |bs| && bs[k].end.None?
  }
  /** In an ordered run of blocks only the last can have run off the document. */
  lemma OnlyLastThrows(bs: seq<Block>)
    requires Ordered(bs)
    ensures WalkThrew(bs) <==> |bs| > 0 && bs[|bs| - 1].end.None?
  {
    if |bs| > 0 && bs[|bs| - 1].end.None? {
      assert WalkThrew(bs);
    }
  }


  /** The written lines begin with head. */
  predicate Begins(lines: seq<string>, head: seq<string>) {
    |head| <= |lines| && lines[..|head|] == head
  }

  /** The last line written closes `defineFeature`. */
  predicate Closed(lines: seq<string>) {
    |lines| > 0 && lines[|lines| - 1] == FileClosing
  }

  /**
   * The `'open'` handler: banner, boilerplate, one test per block the loop
   * found, and the line closing `defineFeature`, which is never written when
   * a step walk threw.
   */
  function GenerateFile(doc: seq<string>, uriPath: string, relative: (string, string) -> string): (r: Emitted)
    ensures Begins(r.lines, Head(uriPath, relative))
    ensures r.Threw? <==> WalkThrew(Scan(Document(doc), 0))
    ensures r.Completed? ==> Closed(r.lines)
  {
    FileOf(Head(uriPath, relative), Document(doc))
  }

  /** The file for the trimmed lines ls under the given head. */
  function FileOf(head: seq<string>, ls: seq<string>): (r: Emitted)
    ensures Begins(r.lines, head)
    ensures r.Threw? <==> WalkThrew(Scan(ls, 0))
    ensures r.Completed? ==> Closed(r.lines)
  {
    ScanOrdered(ls, 0);
    Assemble(head, Scan(ls, 0))
  }

  /** The head, then one section per block, and the closing line unless a block's walk threw. */
  function Assemble(head: seq<string>, bs: seq<Block>): (r: Emitted)
    requires Ordered(bs)
    ensures Begins(r.lines, head)
    ensures r.Threw? <==> WalkThrew(bs)
    ensures r.Completed? ==> |r.lines| > |head| && r.lines[|r.lines| - 1] == FileClosing
  {
    OnlyLastThrows(bs);
    Emit(head, Sections(bs), |bs| > 0 && bs[|bs| - 1].end.None?)
  }

  /** The lines written after the head: the sections, then the closing line unless a walk threw. */
  function Emit(head: seq<string>, ss: seq<Section>, threw: bool): (r: Emitted)
    ensures Begins(r.lines, head)
    ensures r.Threw? <==> threw
    ensures r.Completed? ==> |r.lines| > |head| && r.lines[|r.lines| - 1] == FileClosing
  {
    var closing := if threw then [] else [FileClosing];
    var lines := head + (Render(ss) + closing);
    PrefixOfConcat(head, Render(ss) + closing);
    if threw then Threw(lines) else Completed(lines)
  }

  /** What saving does: nothing for a file that is not a `.feature`, else the generated file at `<name>.ts`. */
  datatype Save = Save(target: string, output: Emitted)

  function OnSave(fileName: string, uriPath: string, doc: seq<string>, relative: (string, string) -> string): (r: Option<Save>)
    ensures r.Some? <==> EndsWith(fileName, ".feature")
    ensures r.Some? ==> r.value.target == fileName + ".ts"
    ensures r.Some? ==> EndsWith(r.value.target, ".feature.ts")
    ensures r.Some? ==> r.value.output == GenerateFile(doc, uriPath, relative)
  {
    if !EndsWith(fileName, ".feature") then None
    else
      FeatureTarget(fileName);
      Some(Save(fileName + ".ts", GenerateFile(doc, uriPath, relative)))
  }

  /** The output file of a `.feature` document is a `.feature.ts` file. */
  lemma FeatureTarget(fileName: string)
    requires EndsWith(fileName, ".feature")
    ensures EndsWith(fileName + ".ts", ".feature.ts")
  {
    var t := fileName + ".ts";
    assert t[|t| - 11..] == fileName[|fileName| - 8..] + ".ts";
  }

  // ---------------------------------------------------------------------------
  // Where each test sits in the output.

  /**
   * The test for one block, written from line o on: the opening with the
   * title, one call per step line, in order, and, if the test was closed,
   * ` });` and a blank line.
   */
  predicate TestWritten(lines: seq<string>, o: nat, title: string, steps: seq<string>, closed: bool) {
    var m := o + 1 + |steps|;
    && m + (if closed then 2 else 0) <= |lines|
    && lines[o] == TestOpening(title)
    && Pairwise<string, string>(CallOf, steps, lines[o + 1..m])
    && (closed ==> lines[m] == TestClosing && lines[m + 1] == "")
  }

  /** The number of lines the test for block b takes. */
  function TestLength(b: Block): nat {
    1 + |b.steps| + (if b.end.Some? then 2 else 0)
  }

  /** The line where the test for block k opens: after the head and the tests before it. */
  function TestOffset(head: seq<string>, bs: seq<Block>, k: nat): nat
    requires k <= |bs|
  {
    |head| + |Render(Sections(bs)[..k])|
  }

  /** Every block holds only step lines, as a walk collects them. */
  predicate StepsOnly(bs: seq<Block>) {
    forall k, i :: 0 <= k < |bs| && 0 <= i < |bs[k].steps| ==> IsStepLine(bs[k].steps[i])
  }

  /** xs holds ys as the run starting at o. */
  ghost predicate RunAt<T>(xs: seq<T>, o: nat, ys: seq<T>) {
    o + |ys| <= |xs| && xs[o..o + |ys|] == ys
  }

  lemma RunOfConcat<T>(a: seq<T>, b: seq<T>, c: seq<T>)
    ensures RunAt(a + b + c, |a|, b)
  {
    assert (a + b + c)[|a|..|a| + |b|] == b;
  }

  lemma RunPart<T>(xs: seq<T>, o: nat, ys: seq<T>, i: nat, j: nat)
    requires RunAt(xs, o, ys) && i <= j <= |ys|
    ensures xs[o + i..o + j] == ys[i..j]
  {
    forall n | 0 <= n < j - i
      ensures xs[o + i..o + j][n] == ys[i..j][n]
    {
      assert xs[o + i + n] == xs[o..o + |ys|][i + n];
    }
  }

  lemma {:induction false} ConcatMapAppend<A>(f: A -> seq<string>, a: seq<A>, b: seq<A>)
    ensures ConcatMap(f, a + b) == ConcatMap(f, a) + ConcatMap(f, b)
  {
    if a == [] {
      assert a + b == b;
    } else {
      ConcatMapAppend(f, a[1..], b);
      assert (a + b)[0] == a[0];
      assert (a + b)[1..] == a[1..] + b;
    }
  }

  /** The run of element k comes right after those of the elements before it. */
  lemma ConcatMapSplit<A>(f: A -> seq<string>, xs: seq<A>, k: nat)
    requires k < |xs|
    ensures ConcatMap(f, xs) == ConcatMap(f, xs[..k]) + f(xs[k]) + ConcatMap(f, xs[k + 1..])
  {
    var a, b := xs[..k], xs[k..];
    assert xs == a + b;
    ConcatMapAppend(f, a, b);
    assert b[0] == xs[k] && b[1..] == xs[k + 1..];
    assert ConcatMap(f, b) == f(xs[k]) + ConcatMap(f, xs[k + 1..]);
  }

  lemma ConcatMapGrows<A>(f: A -> seq<string>, xs: seq<A>, k: nat)
    requires k < |xs|
    ensures |ConcatMap(f, xs[..k + 1])| == |ConcatMap(f, xs[..k])| + |f(xs[k])|
  {
    ConcatMapAppend(f, xs[..k], [xs[k]]);
    assert xs[..k + 1] == xs[..k] + [xs[k]];
    assert ConcatMap(f, [xs[k]]) == f(xs[k]) + ConcatMap(f, []);
  }

  lemma EmitSection(head: seq<string>, ss: seq<Section>, threw: bool, k: nat)
    requires k < |ss|
    ensures RunAt(Emit(head, ss, threw).lines, |head| + |Render(ss[..k])|, RenderSection(ss[k]))
  {
    var closing := if threw then [] else [FileClosing];
    assert Emit(head, ss, threw).lines == head + (ConcatMap(RenderSection, ss) + closing);
    FramedRun(RenderSection, head, ss, closing, k);
  }

  /** Between a head and a tail, the run of element k sits after the head and the runs before it. */
  lemma FramedRun<A>(f: A -> seq<string>, head: seq<string>, xs: seq<A>, tail: seq<string>, k: nat)
    requires k < |xs|
    ensures RunAt(head + (ConcatMap(f, xs) + tail), |head| + |ConcatMap(f, xs[..k])|, f(xs[k]))
  {
    ConcatMapSplit(f, xs, k);
    var a := head + ConcatMap(f, xs[..k]);
    var c := ConcatMap(f, xs[k + 1..]) + tail;
    assert head + (ConcatMap(f, xs) + tail) == a + f(xs[k]) + c;
    RunOfConcat(a, f(xs[k]), c);
  }

  lemma {:induction false} SectionsIndex(bs: seq<Block>, k: nat)
    requires k < |bs|
    ensures Sections(bs)[k] == SectionOf(bs[k])
  {
    var first := SectionOf(bs[0]);
    var rest := Sections(bs[1..]);
    assert Sections(bs) == [first] + rest;
    if k > 0 {
      SectionsIndex(bs[1..], k - 1);
      assert bs[1..][k - 1] == bs[k];
      assert ([first] + rest)[k] == rest[k - 1];
    }
  }

  /** A run of step lines is its own run of step lines. */
  lemma {:induction false} StepLinesOfSteps(ls: seq<string>)
    requires forall i :: 0 <= i < |ls| ==> IsStepLine(ls[i])
    ensures StepLines(ls) == ls
  {
    if ls != [] {
      StepLinesOfSteps(ls[1..]);
    }
  }

  /** Block b's steps give one call each, so its section has TestLength(b) lines. */
  lemma SectionCalls(b: Block)
    requires forall i :: 0 <= i < |b.steps| ==> IsStepLine(b.steps[i])
    ensures Pairwise<string, string>(CallOf, b.steps, SectionOf(b).calls)
    ensures |RenderSection(SectionOf(b))| == TestLength(b)
  {
    StepLinesOfSteps(b.steps);
    CallsOfSteps(b.steps);
  }

  /** The rendered section of block b, found at line o, is b's test written there. */
  lemma SectionShape(lines: seq<string>, o: nat, b: Block)
    requires forall i :: 0 <= i < |b.steps| ==> IsStepLine(b.steps[i])
    requires RunAt(lines, o, RenderSection(SectionOf(b)))
    ensures TestWritten(lines, o, Title(b.heading), b.steps, b.end.Some?)
  {
    SectionCalls(b);
    RenderedShape(lines, o, SectionOf(b), b.steps);
  }

  /** A rendered section found at line o is a test written there, with its calls for steps. */
  lemma RenderedShape(lines: seq<string>, o: nat, s: Section, steps: seq<string>)
    requires Pairwise<string, string>(CallOf, steps, s.calls)
    requires RunAt(lines, o, RenderSection(s))
    ensures TestWritten(lines, o, s.title, steps, s.closed)
  {
    var closing := if s.closed then [TestClosing, ""] else [];
    RunParts(lines, o, TestOpening(s.title), s.calls, closing);
  }

  /** A run of one element, then ys, then zs, read back element by element. */
  lemma RunParts<T>(xs: seq<T>, o: nat, x: T, ys: seq<T>, zs: seq<T>)
    requires RunAt(xs, o, [x] + ys + zs)
    ensures o + 1 + |ys| + |zs| <= |xs|
    ensures xs[o] == x && xs[o + 1..o + 1 + |ys|] == ys
    ensures forall i :: 0 <= i < |zs| ==> xs[o + 1 + |ys| + i] == zs[i]
  {
    var run := [x] + ys + zs;
    assert xs[o] == run[0] by {
      assert xs[o] == xs[o..o + |run|][0];
    }
    RunPart(xs, o, run, 1, 1 + |ys|);
    assert run[1..1 + |ys|] == ys;
    forall i | 0 <= i < |zs|
      ensures xs[o + 1 + |ys| + i] == zs[i]
    {
      assert xs[o + 1 + |ys| + i] == xs[o..o + |run|][1 + |ys| + i];
    }
  }

  /** In the assembled file the test for block k sits at its offset. */
  lemma AssembleTest(head: seq<string>, bs: seq<Block>, k: nat)
    requires Ordered(bs) && StepsOnly(bs) && k < |bs|
    ensures TestWritten(Assemble(head, bs).lines, TestOffset(head, bs, k), Title(bs[k].heading), bs[k].steps, bs[k].end.Some?)
  {
    AssembleSection(head, bs, k);
    SectionsIndex(bs, k);
    SectionCalls(bs[k]);
    RenderedShape(Assemble(head, bs).lines, TestOffset(head, bs, k), Sections(bs)[k], bs[k].steps);
  }

  /** The assembled file holds the section of block k at its offset. */
  lemma AssembleSection(head: seq<string>, bs: seq<Block>, k: nat)
    requires Ordered(bs) && k < |bs|
    ensures RunAt(Assemble(head, bs).lines, TestOffset(head, bs, k), RenderSection(Sections(bs)[k]))
  {
    EmitSection(head, Sections(bs), |bs| > 0 && bs[|bs| - 1].end.None?, k);
  }

  /**
   * The tests follow the head back to back, each TestLength lines long, and
   * only the closing line of `defineFeature` comes after the last one.
   */
  lemma AssembleLayout(head: seq<string>, bs: seq<Block>)
    requires Ordered(bs) && StepsOnly(bs)
    ensures TestOffset(head, bs, 0) == |head|
    ensures forall k :: 0 <= k < |bs| ==> TestOffset(head, bs, k + 1) == TestOffset(head, bs, k) + TestLength(bs[k])
    ensures |Assemble(head, bs).lines| == TestOffset(head, bs, |bs|) + (if WalkThrew(bs) then 0 else 1)
  {
    var ss := Sections(bs);
    forall k | 0 <= k < |bs|
      ensures TestOffset(head, bs, k + 1) == TestOffset(head, bs, k) + TestLength(bs[k])
    {
      ConcatMapGrows(RenderSection, ss, k);
      SectionsIndex(bs, k);
      SectionCalls(bs[k]);
    }
    OnlyLastThrows(bs);
    assert ss[..|bs|] == ss;
  }

  /** The blocks the loop finds hold only step lines. */
  lemma ScanStepsOnly(ls: seq<string>)
    ensures StepsOnly(Scan(ls, 0))
  {
    var bs := Scan(ls, 0);
    ScanBlocks(ls, 0);
    forall k | 0 <= k < |bs|
      ensures forall i :: 0 <= i < |bs[k].steps| ==> IsStepLine(bs[k].steps[i])
    {
      BlockWalk(ls, bs[k].header);
    }
  }

  /**
   * The test for block k of the loop: at its offset the file holds
   * `test('<title>', …` with the title of the block's `Scenario` line, then
   * one call line per step line of the block, in document order, then, unless
   * the walk threw, ` });` and a blank line. The block's steps are the step
   * lines between its `Scenario` line and the line that stopped the walk, or
   * the end of the document when the walk ran off it.
   */
  lemma FileTest(doc: seq<string>, uriPath: string, relative: (string, string) -> string, k: nat)
    requires k < |Scan(Document(doc), 0)|
    ensures var ls := Document(doc);
      var b := Scan(ls, 0)[k];
      && IsScenarioLine(ls[b.header]) && b == BlockAt(ls, b.header)
      && (b.end.Some? ==> StoppedAt(ls, b.header, b.steps, b.end.value))
      && (b.end.None? ==> RanOffAfter(ls, b.header, b.steps))
      && TestWritten(GenerateFile(doc, uriPath, relative).lines, TestOffset(Head(uriPath, relative), Scan(ls, 0), k),
                     Title(ls[b.header]), b.steps, b.end.Some?)
  {
    var ls := Document(doc);
    FileOfTest(Head(uriPath, relative), ls, k);
    BlockWalk(ls, Scan(ls, 0)[k].header);
  }

  lemma FileOfTest(head: seq<string>, ls: seq<string>, k: nat)
    requires k < |Scan(ls, 0)|
    ensures var b := Scan(ls, 0)[k];
      && IsScenarioLine(ls[b.header]) && b == BlockAt(ls, b.header)
      && TestWritten(FileOf(head, ls).lines, TestOffset(head, Scan(ls, 0), k), Title(ls[b.header]), b.steps, b.end.Some?)
  {
    var bs := Scan(ls, 0);
    ScanOrdered(ls, 0);
    ScanBlocks(ls, 0);
    ScanStepsOnly(ls);
    AssembleTest(head, bs, k);
  }

  /**
   * The generated file is the head, then the tests back to back in block
   * order, then the closing line of `defineFeature` unless a walk threw.
   */
  lemma FileLayout(doc: seq<string>, uriPath: string, relative: (string, string) -> string)
    ensures var bs := Scan(Document(doc), 0);
      var head := Head(uriPath, relative);
      var r := GenerateFile(doc, uriPath, relative);
      && TestOffset(head, bs, 0) == |head|
      && (forall k :: 0 <= k < |bs| ==> TestOffset(head, bs, k + 1) == TestOffset(head, bs, k) + TestLength(bs[k]))
      && |r.lines| == TestOffset(head, bs, |bs|) + (if r.Threw? then 0 else 1)
  {
    FileOfLayout(Head(uriPath, relative), Document(doc));
  }

  lemma FileOfLayout(head: seq<string>, ls: seq<string>)
    ensures var bs := Scan(ls, 0);
      var r := FileOf(head, ls);
      && TestOffset(head, bs, 0) == |head|
      && (forall k :: 0 <= k < |bs| ==> TestOffset(head, bs, k + 1) == TestOffset(head, bs, k) + TestLength(bs[k]))
      && |r.lines| == TestOffset(head, bs, |bs|) + (if r.Threw? then 0 else 1)
  {
    ScanOrdered(ls, 0);
    ScanStepsOnly(ls);
    AssembleLayout(head, Scan(ls, 0));
  }

  // ---------------------------------------------------------------------------
  // Counting test blocks in the output.

  predicate IsOpening(l: string) {
    "test(" <= l
  }

  function Openings(ls: seq<string>): nat {
    if ls == [] then 0 else (if IsOpening(ls[0]) then 1 else 0) + Openings(ls[1..])
  }

  lemma {:induction false} OpeningsAppend(a: seq<string>, b: seq<string>)
    ensures Openings(a + b) == Openings(a) + Openings(b)
  {
    if a != [] {
      assert (a + b)[0] == a[0];
      assert (a + b)[1..] == a[1..] + b;
      OpeningsAppend(a[1..], b);
    } else {
      assert a + b == b;
    }
  }

  lemma {:induction false} NoOpenings(ls: seq<string>)
    requires forall i :: 0 <= i < |ls| ==> !IsOpening(ls[i])
    ensures Openings(ls) == 0
  {
    if ls != [] {
      NoOpenings(ls[1..]);
    }
  }

  lemma SectionOpenings(s: Section)
    ensures Openings(RenderSection(s)) == 1
  {
    var closing := if s.closed then [TestClosing, ""] else [];
    TailOpenings(s.calls, closing);
    OpeningsAppend([TestOpening(s.title)], s.calls + closing);
    assert RenderSection(s) == [TestOpening(s.title)] + (s.calls + closing);
    assert IsOpening(TestOpening(s.title));
  }

  /** Indented calls and the closing lines open no test. */
  lemma TailOpenings(calls: seq<CallLine>, closing: seq<string>)
    requires closing == [] || closing == [TestClosing, ""]
    ensures Openings(calls + closing) == 0
  {
    var tail := calls + closing;
    forall i | 0 <= i < |tail|
      ensures !IsOpening(tail[i])
    {
      if i < |calls| {
        assert tail[i] == calls[i];
        assert Indent <= calls[i];
        assert tail[i][0] == ' ';
      }
    }
    NoOpenings(tail);
  }

  lemma {:induction false} RenderOpenings(ss: seq<Section>)
    ensures Openings(Render(ss)) == |ss|
  {
    if ss != [] {
      SectionOpenings(ss[0]);
      RenderOpenings(ss[1..]);
      OpeningsAppend(RenderSection(ss[0]), Render(ss[1..]));
    }
  }

  /** No line of a run starts with c. */
  predicate NoneStartWith(ls: seq<string>, c: char) {
    forall i :: 0 <= i < |ls| ==> ls[i] == [] || ls[i][0] != c
  }

  /** A run in which no line starts with `t` opens no test, as every opening starts with `test(`. */
  lemma {:induction false} NoLeadingTNoOpenings(ls: seq<string>)
    requires NoneStartWith(ls, 't')
    ensures Openings(ls) == 0
  {
    if ls != [] {
      assert !IsOpening(ls[0]) by { if ls[0] != [] { assert ls[0][0] != 't'; } }
      NoLeadingTNoOpenings(ls[1..]);
    }
  }

  lemma ImportsStart(root: string, c: char)
    requires c != 'i'
    ensures NoneStartWith(Imports(root), c)
  {
    var ls := Imports(root);
    forall i | 0 <= i < |ls|
      ensures ls[i] == [] || ls[i][0] != c
    {
      if i < 5 {
        assert ls[i][0] == "import "[0];
      }
    }
  }

  lemma LoaderStart(path: string, c: char)
    requires c != 'c' && c != 'd'
    ensures NoneStartWith(Loader(path), c)
  {
    assert ("const feature = loadFeature('" + path + "');")[0] == 'c';
  }

  lemma StartAppend(a: seq<string>, b: seq<string>, c: char)
    requires NoneStartWith(a, c) && NoneStartWith(b, c)
    ensures NoneStartWith(a + b, c)
  {
    forall i | 0 <= i < |a + b|
      ensures (a + b)[i] == [] || (a + b)[i][0] != c
    {
      if i < |a| {
        assert (a + b)[i] == a[i];
      } else {
        assert (a + b)[i] == b[i - |a|];
      }
    }
  }

  lemma BannerStart(c: char)
    requires c != '/'
    ensures NoneStartWith(Banner, c)
  {
    assert Rule[0] == '/';
    assert Banner[1][0] == '/';
  }

  lemma HooksStart()
    ensures NoneStartWith(Hooks, 't')
  {
  }

  lemma HeadOpenings(uriPath: string, relative: (string, string) -> string)
    ensures Openings(Head(uriPath, relative)) == 0
  {
    var i := Imports(ImportRoot(uriPath, relative));
    var l := Loader(FeaturePath(uriPath));
    ImportsStart(ImportRoot(uriPath, relative), 't');
    LoaderStart(FeaturePath(uriPath), 't');
    HooksStart();
    BannerStart('t');
    StartAppend(i, l, 't');
    StartAppend(i + l, Hooks, 't');
    StartAppend(Banner, i + l + Hooks, 't');
    assert Head(uriPath, relative) == Banner + (i + l + Hooks);
    NoLeadingTNoOpenings(Banner + (i + l + Hooks));
  }

  /**
   * The generated file holds one `test(` opening per block, that is per
   * `Scenario` line the loop reaches (see `ScanHeaders`), and nothing else
   * in it starts that way.
   */
  lemma FileOpenings(doc: seq<string>, uriPath: string, relative: (string, string) -> string)
    ensures Openings(GenerateFile(doc, uriPath, relative).lines) == |Scan(Document(doc), 0)|
  {
    ScanOrdered(Document(doc), 0);
    HeadOpenings(uriPath, relative);
    AssembleOpenings(Head(uriPath, relative), Scan(Document(doc), 0));
    assert GenerateFile(doc, uriPath, relative) == Assemble(Head(uriPath, relative), Scan(Document(doc), 0));
  }

  lemma AssembleOpenings(head: seq<string>, bs: seq<Block>)
    requires Openings(head) == 0 && Ordered(bs)
    ensures Openings(Assemble(head, bs).lines) == |bs|
  {
    EmitOpenings(head, Sections(bs), |bs| > 0 && bs[|bs| - 1].end.None?);
  }

  lemma EmitOpenings(head: seq<string>, ss: seq<Section>, threw: bool)
    requires Openings(head) == 0
    ensures Openings(Emit(head, ss, threw).lines) == |ss|
  {
    var closing := if threw then [] else [FileClosing];
    assert Emit(head, ss, threw).lines == head + (Render(ss) + closing);
    RenderOpenings(ss);
    OpeningsAppend(head, Render(ss) + closing);
    OpeningsAppend(Render(ss), closing);
    assert Openings(closing) == 0 by {
      if closing != [] {
        assert !IsOpening(FileClosing);
        assert closing[1..] == [];
      }
    }
  }

  // ---------------------------------------------------------------------------
  // Counting test closings in the output.

  /** The number of lines that are exactly a test block's closing ` });`. */
  function Closings(ls: seq<string>): nat {
    if ls == [] then 0 else (if ls[0] == TestClosing then 1 else 0) + Closings(ls[1..])
  }

  /** The number of sections whose block's walk ended, so that the test was closed. */
  function ClosedCount(ss: seq<Section>): nat {
    if ss == [] then 0 else (if ss[0].closed then 1 else 0) + ClosedCount(ss[1..])
  }

  lemma {:induction false} ClosingsAppend(a: seq<string>, b: seq<string>)
    ensures Closings(a + b) == Closings(a) + Closings(b)
  {
    if a != [] {
      assert (a + b)[0] == a[0];
      assert (a + b)[1..] == a[1..] + b;
      ClosingsAppend(a[1..], b);
    } else {
      assert a + b == b;
    }
  }

  lemma {:induction false} NoClosings(ls: seq<string>)
    requires forall i :: 0 <= i < |ls| ==> ls[i] != TestClosing
    ensures Closings(ls) == 0
  {
    if ls != [] {
      NoClosings(ls[1..]);
    }
  }

  /** An opening and indented calls close nothing. */
  lemma BodyClosings(title: string, calls: seq<CallLine>)
    ensures Closings([TestOpening(title)] + calls) == 0
  {
    var body := [TestOpening(title)] + calls;
    forall i | 0 <= i < |body|
      ensures body[i] != TestClosing
    {
      if i == 0 {
        assert body[0][0] == 't';
      } else {
        assert body[i] == calls[i - 1];
        assert Indent <= calls[i - 1];
        assert body[i][1] == ' ';
      }
    }
    NoClosings(body);
  }

  lemma SectionClosings(s: Section)
    ensures Closings(RenderSection(s)) == if s.closed then 1 else 0
  {
    var closing := if s.closed then [TestClosing, ""] else [];
    BodyClosings(s.title, s.calls);
    ClosingsAppend([TestOpening(s.title)] + s.calls, closing);
    assert RenderSection(s) == [TestOpening(s.title)] + s.calls + closing;
    if s.closed {
      assert closing[1..] == [""];
      assert [""][1..] == [];
    }
  }

  lemma {:induction false} RenderClosings(ss: seq<Section>)
    ensures Closings(Render(ss)) == ClosedCount(ss)
  {
    if ss != [] {
      SectionClosings(ss[0]);
      RenderClosings(ss[1..]);
      ClosingsAppend(RenderSection(ss[0]), Render(ss[1..]));
    }
  }

  /** In an ordered run of blocks every block is closed except a last one whose walk threw. */
  lemma {:induction false} SectionsClosed(bs: seq<Block>)
    requires Ordered(bs)
    ensures ClosedCount(Sections(bs)) == |bs| - (if |bs| > 0 && bs[|bs| - 1].end.None? then 1 else 0)
  {
    if bs != [] {
      var rest := bs[1..];
      OrderedTail(bs);
      SectionsClosed(rest);
      assert ClosedCount(Sections(bs)) == (if bs[0].end.Some? then 1 else 0) + ClosedCount(Sections(rest));
      if rest != [] {
        assert bs[|bs| - 1] == rest[|rest| - 1];
      }
    }
  }

  /** Dropping the first block keeps the order; a first block followed by another ended its walk. */
  lemma OrderedTail(bs: seq<Block>)
    requires Ordered(bs) && bs != []
    ensures Ordered(bs[1..])
    ensures |bs| > 1 ==> bs[0].end.Some?
  {
    var rest := bs[1..];
    forall k | 0 <= k < |rest| - 1
      ensures rest[k].end.Some? && rest[k].end.value < rest[k + 1].header
    {
      assert rest[k] == bs[k + 1] && rest[k + 1] == bs[k + 2];
    }
  }

  lemma EmitClosings(head: seq<string>, ss: seq<Section>, threw: bool)
    ensures Closings(Emit(head, ss, threw).lines) == Closings(head) + ClosedCount(ss)
  {
    var closing := if threw then [] else [FileClosing];
    assert Emit(head, ss, threw).lines == head + (Render(ss) + closing);
    RenderClosings(ss);
    ClosingsAppend(head, Render(ss) + closing);
    ClosingsAppend(Render(ss), closing);
    assert Closings(closing) == 0 by {
      if closing != [] {
        assert |FileClosing| != |TestClosing|;
        assert closing[1..] == [];
      }
    }
  }

  lemma AssembleClosings(head: seq<string>, bs: seq<Block>)
    requires Ordered(bs)
    ensures Closings(Assemble(head, bs).lines) == Closings(head) + |bs| - (if WalkThrew(bs) then 1 else 0)
  {
    OnlyLastThrows(bs);
    SectionsClosed(bs);
    EmitClosings(head, Sections(bs), |bs| > 0 && bs[|bs| - 1].end.None?);
  }

  /** Of the head's lines only the two hook closings are ` });`. */
  lemma HeadClosings(uriPath: string, relative: (string, string) -> string)
    ensures Closings(Head(uriPath, relative)) == 2
  {
    var i := Imports(ImportRoot(uriPath, relative));
    var l := Loader(FeaturePath(uriPath));
    BannerStart(' ');
    ImportsStart(ImportRoot(uriPath, relative), ' ');
    LoaderStart(FeaturePath(uriPath), ' ');
    assert Head(uriPath, relative) == Banner + (i + l + Hooks);
    FramedHooksClosings(Banner, i, l);
  }

  /** Unindented runs around the hooks add no closing to the hooks' two. */
  lemma FramedHooksClosings(b: seq<string>, i: seq<string>, l: seq<string>)
    requires NoneStartWith(b, ' ') && NoneStartWith(i, ' ') && NoneStartWith(l, ' ')
    ensures Closings(b + (i + l + Hooks)) == 2
  {
    UnindentedClosings(b);
    UnindentedClosings(i);
    UnindentedClosings(l);
    HooksClosings();
    ClosingsAppend(i, l);
    ClosingsAppend(i + l, Hooks);
    ClosingsAppend(b, i + l + Hooks);
  }

  /** A run of lines none of which starts with a space holds no closing. */
  lemma UnindentedClosings(ls: seq<string>)
    requires NoneStartWith(ls, ' ')
    ensures Closings(ls) == 0
  {
    forall i | 0 <= i < |ls|
      ensures ls[i] != TestClosing
    {
      assert TestClosing[0] == ' ';
    }
    NoClosings(ls);
  }

  lemma HooksClosings()
    ensures Closings(Hooks) == 2
  {
    var a := Hooks[..2];
    var b := Hooks[3..6];
    var c := Hooks[7..];
    assert Hooks == a + [Hooks[2]] + b + [Hooks[6]] + c;
    assert Closings(a) == 0 && Closings(b) == 0 && Closings(c) == 0 by {
      NoClosings(a);
      NoClosings(b);
      NoClosings(c);
    }
    ClosingsAppend(a, [Hooks[2]]);
    ClosingsAppend(a + [Hooks[2]], b);
    ClosingsAppend(a + [Hooks[2]] + b, [Hooks[6]]);
    ClosingsAppend(a + [Hooks[2]] + b + [Hooks[6]], c);
  }

  /**
   * The generated file holds one ` });` per block whose step walk ended, after
   * the two the hooks write: one per block when generation completes, one
   * fewer when the last walk threw.
   */
  lemma FileClosings(doc: seq<string>, uriPath: string, relative: (string, string) -> string)
    ensures var r := GenerateFile(doc, uriPath, relative);
      Closings(r.lines) == 2 + |Scan(Document(doc), 0)| - (if r.Threw? then 1 else 0)
  {
    ScanOrdered(Document(doc), 0);
    HeadClosings(uriPath, relative);
    AssembleClosings(Head(uriPath, relative), Scan(Document(doc), 0));
    assert GenerateFile(doc, uriPath, relative) == Assemble(Head(uriPath, relative), Scan(Document(doc), 0));
  }
}

=== FILE: lines.dfy ===
/** Reading and classifying the lines of a feature document. */
module Lines {
  import opened Results
  import opened Text

  /** `getLine`: the text of line n, trimmed. The host only hands out lines that exist. */
  function GetLine(doc: seq<string>, n: nat): (l: string)
    requires n < |doc|
    ensures IsTrimmed(l)
    ensures IsTrimmed(doc[n]) ==> l == doc[n]
  {
    Trim(doc[n])
  }

  /** `isStepLine`: only the three concrete keywords, each followed by a space, start a step. */
  predicate IsStepLine(l: string) {
    "Given " <= l || "When " <= l || "Then " <= l
  }

  /** `isCommentLine`. */
  predicate IsCommentLine(l: string) {
    "#" <= l
  }

  /** `isTableLine`. */
  predicate IsTableLine(l: string) {
    "|" <= l
  }

  /** The keyword a step line starts with. */
  function Keyword(l: string): (k: string)
    requires IsStepLine(l)
    ensures k == "Given" || k == "When" || k == "Then"
    ensures k + " " <= l
  {
    if "Given " <= l then "Given" else if "When " <= l then "When" else "Then"
  }

  lemma OccursSpace(l: string, k: nat)
    ensures OccursAt(l, " ", k) <==> (k < |l| && l[k] == ' ')
  {
    if k < |l| && l[k] == ' ' {
      assert l[k..k + 1] == [l[k]];
    }
  }

  /**
   * The lazy pattern `/^.*? /` ends just after the first space, and it matches
   * exactly when there is a space with no line terminator before it.
   */
  lemma LazySpaceIsFirstSpace(l: string)
    ensures LazyPrefix(l, " ").Some? <==> HasStepType(l)
    ensures LazyPrefix(l, " ").Some? ==> IndexOf(l, ' ') == Some(LazyPrefix(l, " ").value - 1)
  {
    var m := LazyPrefix(l, " ");
    var f := IndexOf(l, ' ');
    if m.Some? {
      var e := m.value;
      OccursSpace(l, e - 1);
      forall k | 0 <= k < e - 1
        ensures l[k] != ' '
      {
        OccursSpace(l, k);
      }
      assert f.Some? by { assert l[e - 1] in l; }
      forall k | 0 <= k < f.value
        ensures l[k] != ' '
      {
        assert l[..f.value][k] == l[k];
      }
    }
    if f.Some? && NoTerminator(l, 0, f.value) {
      OccursSpace(l, f.value);
    }
  }

  /** The line has a space and no line terminator before its first space, so `/^.*? /` matches. */
  predicate HasStepType(l: string) {
    IndexOf(l, ' ').Some? && NoTerminator(l, 0, IndexOf(l, ' ').value)
  }

  /**
   * `getStepType`: the text before the first space, trimmed and lower-cased.
   * `None` is the `null` match, on which the source throws.
   */
  function StepType(l: string): (r: Option<string>)
    ensures r.Some? <==> HasStepType(l)
    ensures r.Some? ==> ' ' !in r.value
    ensures r.Some? ==> forall i :: 0 <= i < |r.value| ==> !('A' <= r.value[i] <= 'Z')
  {
    LazySpaceIsFirstSpace(l);
    LazySpaceEnd(l);
    match LazyPrefix(l, " ")
    case None => None
    case Some(e) => Some(LowerHead(l[..e]))
  }

  /**
   * The value of `getStepType`: the text before the line's first space,
   * trimmed and lower-cased. The space the match takes with it makes no
   * difference to the trim.
   */
  lemma StepTypeValue(l: string)
    requires HasStepType(l)
    ensures StepType(l) == Some(ToLower(Trim(l[..IndexOf(l, ' ').value])))
  {
    LazySpaceIsFirstSpace(l);
    var f := IndexOf(l, ' ').value;
    var e := LazyPrefix(l, " ").value;
    assert e == f + 1;
    assert l[..e] == l[..f] + [' '];
    TrimTrailingSpace(l[..f]);
  }

  /** p ends in a space and holds no other: the shape of what `/^.*? /` matches. */
  predicate EndsAtFirstSpace(p: string) {
    |p| >= 1 && p[|p| - 1] == ' ' && ' ' !in p[..|p| - 1]
  }

  /** Where `/^.*? /` matches, the matched prefix ends at the line's first space. */
  lemma LazySpaceEnd(l: string)
    ensures LazyPrefix(l, " ").Some? ==>
      var e := LazyPrefix(l, " ").value;
      1 <= e <= |l| && EndsAtFirstSpace(l[..e])
  {
    LazySpaceIsFirstSpace(l);
    if LazyPrefix(l, " ").Some? {
      var e := LazyPrefix(l, " ").value;
      assert l[..e][..e - 1] == l[..e - 1];
    }
  }

  /**
   * The step type read off the matched prefix p, which ends in the first space:
   * trimmed and lower-cased, so it holds neither a space nor an upper-case letter.
   */
  function LowerHead(p: string): (r: string)
    requires EndsAtFirstSpace(p)
    ensures ' ' !in r
    ensures forall i :: 0 <= i < |r| ==> !('A' <= r[i] <= 'Z')
  {
    var t := Trim(p);
    NoSpaceInHead(p);
    LowerKeepsOut(t, ' ');
    ToLower(t)
  }

  /** Lower-casing brings in no character that is not an upper-case letter's image. */
  lemma LowerKeepsOut(t: string, c: char)
    requires c !in t && !('a' <= c <= 'z')
    ensures c !in ToLower(t)
  {
    var r := ToLower(t);
    forall i | 0 <= i < |r|
      ensures r[i] != c
    {
      assert t[i] in t;
    }
  }

  /** Trimming the prefix that ends at the first space leaves no space in it. */
  lemma NoSpaceInHead(p: string)
    requires EndsAtFirstSpace(p)
    ensures ' ' !in Trim(p)
  {
    var u := TrimStart(p);
    SpaceShapeSuffix(p, u);
    var r := TrimEnd(u);
    assert r == [] || r[|r| - 1] != ' ' by {
      assert IsWhitespace(' ');
    }
    if u != [] {
      SpaceShapePrefix(u, r);
    }
  }

  lemma SpaceShapeSuffix(p: string, u: string)
    requires EndsAtFirstSpace(p)
    requires |u| <= |p| && u == p[|p| - |u|..]
    ensures u == [] || EndsAtFirstSpace(u)
  {
    if u != [] {
      var a := |p| - |u|;
      forall i | 0 <= i < |u| - 1
        ensures u[i] != ' '
      {
        assert u[i] == p[..|p| - 1][a + i];
      }
    }
  }

  lemma SpaceShapePrefix(u: string, r: string)
    requires EndsAtFirstSpace(u)
    requires |r| <= |u| && r == u[..|r|]
    requires r == [] || r[|r| - 1] != ' '
    ensures ' ' !in r
  {
    forall i | 0 <= i < |r|
      ensures r[i] != ' '
    {
      if i < |r| - 1 {
        assert r[i] == u[..|u| - 1][i];
      }
    }
  }

  /** Where the text before the first space holds no whitespace, the step type is that text lower-cased. */
  lemma StepTypeOfWord(l: string, w: string)
    requires w + " " <= l
    requires forall i :: 0 <= i < |w| ==> !IsWhitespace(w[i])
    ensures IndexOf(l, ' ') == Some(|w|)
    ensures StepType(l) == Some(ToLower(w))
  {
    WordBeforeSpace(l, w);
    LazySpaceIsFirstSpace(l);
    assert LazyPrefix(l, " ") == Some(|w| + 1);
    assert l[..|w| + 1] == w + " ";
    TrimWordSpace(w);
  }

  /** A word free of whitespace followed by a space: the space is the line's first. */
  lemma WordBeforeSpace(l: string, w: string)
    requires w + " " <= l
    requires forall i :: 0 <= i < |w| ==> !IsWhitespace(w[i])
    ensures IndexOf(l, ' ') == Some(|w|)
    ensures NoTerminator(l, 0, |w|)
  {
    assert l[|w|] == ' ' by { assert (w + " ")[|w|] == ' '; }
    assert forall i :: 0 <= i < |w| ==> l[i] == w[i] by {
      assert l[..|w| + 1] == w + " ";
    }
    var f := IndexOf(l, ' ');
    assert f.Some? by { assert l[|w|] in l; }
    assert IsWhitespace(' ');
  }

  lemma TrimWordSpace(w: string)
    requires forall i :: 0 <= i < |w| ==> !IsWhitespace(w[i])
    ensures Trim(w + " ") == w
  {
    var p := w + " ";
    if w == [] {
      assert TrimStart(p) == [];
    } else {
      assert TrimStart(p) == p;
      assert TrimEnd(p) == TrimEnd(w) by { assert p[..|p| - 1] == w; }
      assert TrimEnd(w) == w;
    }
  }

  /**
   * The step type of a step line is its keyword in lower case, so it is one of
   * `given`, `when` and `then`.
   */
  lemma StepTypeOfStepLine(l: string)
    requires IsStepLine(l)
    ensures IndexOf(l, ' ') == Some(|Keyword(l)|)
    ensures StepType(l) == Some(ToLower(Keyword(l)))
    ensures StepType(l) == Some("given") || StepType(l) == Some("when") || StepType(l) == Some("then")
  {
    var k := Keyword(l);
    if k == "Given" {
      GivenWord();
    } else if k == "When" {
      WhenWord();
    } else {
      ThenWord();
    }
    StepTypeOfWord(l, k);
  }

  /** A step line's first space follows its keyword, and `/^.*? /` matches there. */
  lemma KeywordSpace(l: string)
    requires IsStepLine(l)
    ensures IndexOf(l, ' ') == Some(|Keyword(l)|)
    ensures HasStepType(l)
  {
    var k := Keyword(l);
    if k == "Given" {
      GivenWord();
    } else if k == "When" {
      WhenWord();
    } else {
      ThenWord();
    }
    WordBeforeSpace(l, k);
  }

  lemma GivenWord()
    ensures forall i :: 0 <= i < |"Given"| ==> !IsWhitespace("Given"[i])
    ensures ToLower("Given") == "given"
  {
    var w := "Given";
    assert ToLower(w)[0] == 'g' && ToLower(w)[1] == 'i' && ToLower(w)[2] == 'v';
    assert ToLower(w)[3] == 'e' && ToLower(w)[4] == 'n';
  }

  lemma WhenWord()
    ensures forall i :: 0 <= i < |"When"| ==> !IsWhitespace("When"[i])
    ensures ToLower("When") == "when"
  {
    var w := "When";
    assert ToLower(w)[0] == 'w' && ToLower(w)[1] == 'h' && ToLower(w)[2] == 'e' && ToLower(w)[3] == 'n';
  }

  lemma ThenWord()
    ensures forall i :: 0 <= i < |"Then"| ==> !IsWhitespace("Then"[i])
    ensures ToLower("Then") == "then"
  {
    var w := "Then";
    assert ToLower(w)[0] == 't' && ToLower(w)[1] == 'h' && ToLower(w)[2] == 'e' && ToLower(w)[3] == 'n';
  }

  /** `And` and `But` lines are not steps, so one of them ends a scenario's run of steps. */
  lemma ConjunctionIsNotStep(l: string)
    requires "And " <= l || "But " <= l
    ensures !IsStepLine(l) && !IsTableLine(l) && !IsCommentLine(l)
  {
    assert l[0] == 'A' || l[0] == 'B';
  }

  /** A line with no space has no step type, so the source's `match(...)[0]` throws on it. */
  lemma NoSpaceNoStepType(l: string)
    requires ' ' !in l
    ensures StepType(l).None?
  {
  }
}

=== FILE: quotes.dfy ===
/**
 * The quoted-literal regular expression `/'([^']*)'/g` of the generator.
 *
 * A global scan of that pattern splits a string into the parts it matches
 * (a quote, a run of non-quotes, a quote) and the characters between them.
 * `Pieces` is that scan; `match(...).length`, and `replace(..., rep)` for a
 * replacement text without `$` patterns, are read off the pieces.
 */
module Quotes {
  import opened Results
  import opened Text

  const Quote: char := '\''

  function QuoteCount(s: string): nat {
    if s == [] then 0 else (if s[0] == Quote then 1 else 0) + QuoteCount(s[1..])
  }

  /** One regex match (`Quoted`, holding the text between the quotes) or one unmatched character. */
  datatype Piece = Plain(c: char) | Quoted(body: string)

  function Plains(s: string): (ps: seq<Piece>)
    ensures |ps| == |s|
    ensures forall i :: 0 <= i < |s| ==> ps[i] == Plain(s[i])
  {
    seq(|s|, i requires 0 <= i < |s| => Plain(s[i]))
  }

  /**
   * The left-to-right scan of `/'([^']*)'/g`: at a quote that has a later quote,
   * the match runs to that next quote and scanning resumes after it; a quote with
   * no later quote matches nothing, and neither does any later character.
   */
  function Pieces(s: string): seq<Piece>
    decreases |s|
  {
    if s == [] then []
    else if s[0] != Quote then [Plain(s[0])] + Pieces(s[1..])
    else match IndexOf(s[1..], Quote)
      case None => Plains(s)
      case Some(k) => [Quoted(s[1..k + 1])] + Pieces(s[k + 2..])
  }

  /** The text a sequence of pieces spells out. */
  function Unparse(ps: seq<Piece>): string {
    if ps == [] then []
    else match ps[0]
      case Plain(c) => [c] + Unparse(ps[1..])
      case Quoted(b) => [Quote] + b + [Quote] + Unparse(ps[1..])
  }

  /** The text after every match is replaced by rep. */
  function Substitute(ps: seq<Piece>, rep: string): string {
    if ps == [] then []
    else match ps[0]
      case Plain(c) => [c] + Substitute(ps[1..], rep)
      case Quoted(_) => rep + Substitute(ps[1..], rep)
  }

  /** Every piece with its body replaced by b. */
  function WithBody(ps: seq<Piece>, b: string): (qs: seq<Piece>)
    ensures |qs| == |ps|
    ensures forall i :: 0 <= i < |ps| ==> qs[i] == (if ps[i].Quoted? then Quoted(b) else ps[i])
  {
    seq(|ps|, i requires 0 <= i < |ps| => if ps[i].Quoted? then Quoted(b) else ps[i])
  }

  function QuotedCount(ps: seq<Piece>): nat {
    if ps == [] then 0 else (if ps[0].Quoted? then 1 else 0) + QuotedCount(ps[1..])
  }

  function PlainQuoteCount(ps: seq<Piece>): nat {
    if ps == [] then 0 else (if ps[0] == Plain(Quote) then 1 else 0) + PlainQuoteCount(ps[1..])
  }

  /** Pieces holding only characters other than the quote. */
  predicate PlainText(ps: seq<Piece>) {
    forall i :: 0 <= i < |ps| ==> ps[i].Plain? && ps[i].c != Quote
  }

  /**
   * The shape a scan can produce: match bodies hold no quote, and an unmatched
   * quote is followed by unmatched non-quote characters only.
   */
  predicate WellFormed(ps: seq<Piece>) {
    ps == [] ||
    match ps[0]
      case Quoted(b) => Quote !in b && WellFormed(ps[1..])
      case Plain(c) => if c == Quote then PlainText(ps[1..]) else WellFormed(ps[1..])
  }

  /** `s.match(/'([^']*)'/g)`'s length, 0 for a `null` result. */
  function MatchCount(s: string): nat {
    QuotedCount(Pieces(s))
  }

  /** `s.replace(/'([^']*)'/g, rep)`. */
  function ReplacePairs(s: string, rep: string): string {
    Substitute(Pieces(s), rep)
  }

  // ---------------------------------------------------------------------------
  // Distribution over concatenation.

  lemma {:induction false} QuoteCountAppend(a: string, b: string)
    ensures QuoteCount(a + b) == QuoteCount(a) + QuoteCount(b)
  {
    if a != [] {
      assert (a + b)[0] == a[0];
      assert (a + b)[1..] == a[1..] + b;
      QuoteCountAppend(a[1..], b);
    } else {
      assert a + b == b;
    }
  }

  lemma {:induction false} UnparseAppend(p: seq<Piece>, q: seq<Piece>)
    ensures Unparse(p + q) == Unparse(p) + Unparse(q)
  {
    if p != [] {
      assert (p + q)[0] == p[0];
      assert (p + q)[1..] == p[1..] + q;
      UnparseAppend(p[1..], q);
    } else {
      assert p + q == q;
    }
  }

  lemma {:induction false} SubstituteAppend(p: seq<Piece>, q: seq<Piece>, rep: string)
    ensures Substitute(p + q, rep) == Substitute(p, rep) + Substitute(q, rep)
  {
    if p != [] {
      assert (p + q)[0] == p[0];
      assert (p + q)[1..] == p[1..] + q;
      SubstituteAppend(p[1..], q, rep);
    } else {
      assert p + q == q;
    }
  }

  lemma {:induction false} QuotedCountAppend(p: seq<Piece>, q: seq<Piece>)
    ensures QuotedCount(p + q) == QuotedCount(p) + QuotedCount(q)
  {
    if p != [] {
      assert (p + q)[0] == p[0];
      assert (p + q)[1..] == p[1..] + q;
      QuotedCountAppend(p[1..], q);
    } else {
      assert p + q == q;
    }
  }

  lemma {:induction false} PlainQuoteCountAppend(p: seq<Piece>, q: seq<Piece>)
    ensures PlainQuoteCount(p + q) == PlainQuoteCount(p) + PlainQuoteCount(q)
  {
    if p != [] {
      assert (p + q)[0] == p[0];
      assert (p + q)[1..] == p[1..] + q;
      PlainQuoteCountAppend(p[1..], q);
    } else {
      assert p + q == q;
    }
  }

  // ---------------------------------------------------------------------------
  // Runs of unmatched characters.

  lemma {:induction false} UnparsePlains(s: string)
    ensures Unparse(Plains(s)) == s
    ensures Substitute(Plains(s), []) == s
  {
    if s != [] {
      assert Plains(s)[1..] == Plains(s[1..]);
      UnparsePlains(s[1..]);
    }
  }

  lemma {:induction false} SubstitutePlains(s: string, rep: string)
    ensures Substitute(Plains(s), rep) == s
  {
    if s != [] {
      assert Plains(s)[1..] == Plains(s[1..]);
      SubstitutePlains(s[1..], rep);
    }
  }

  /** A run of unmatched pieces spells out exactly its characters, one piece per character. */
  lemma {:induction false} PlainsOfUnparse(ps: seq<Piece>)
    requires forall i :: 0 <= i < |ps| ==> ps[i].Plain?
    ensures |Unparse(ps)| == |ps|
    ensures Plains(Unparse(ps)) == ps
  {
    if ps != [] {
      PlainsOfUnparse(ps[1..]);
      assert Unparse(ps) == [ps[0].c] + Unparse(ps[1..]);
    }
  }

  lemma {:induction false} PlainTextCounts(ps: seq<Piece>)
    requires PlainText(ps)
    ensures QuotedCount(ps) == 0 && PlainQuoteCount(ps) == 0
    ensures Quote !in Unparse(ps)
  {
    if ps != [] {
      PlainTextCounts(ps[1..]);
    }
  }

  // ---------------------------------------------------------------------------
  // The scan and Unparse are inverse.

  /** The scan partitions its input: the pieces are well formed and spell out s again. */
  lemma {:induction false} PiecesRoundTrip(s: string)
    ensures WellFormed(Pieces(s))
    ensures Unparse(Pieces(s)) == s
    decreases |s|
  {
    if s == [] {
    } else if s[0] != Quote {
      PiecesRoundTrip(s[1..]);
      UnmatchedStep(s);
    } else {
      match IndexOf(s[1..], Quote)
      case None =>
        UnpairedStep(s);
      case Some(k) =>
        PiecesRoundTrip(s[k + 2..]);
        MatchedStep(s, k);
    }
  }

  lemma UnmatchedStep(s: string)
    requires s != [] && s[0] != Quote
    requires WellFormed(Pieces(s[1..])) && Unparse(Pieces(s[1..])) == s[1..]
    ensures WellFormed(Pieces(s)) && Unparse(Pieces(s)) == s
  {
    var ps := Pieces(s);
    assert ps == [Plain(s[0])] + Pieces(s[1..]);
    assert ps[1..] == Pieces(s[1..]);
    assert Unparse(ps) == [s[0]] + s[1..];
  }

  lemma UnpairedStep(s: string)
    requires s != [] && s[0] == Quote && IndexOf(s[1..], Quote).None?
    ensures WellFormed(Pieces(s)) && Unparse(Pieces(s)) == s
  {
    var ps := Plains(s);
    assert Pieces(s) == ps;
    assert ps[0] == Plain(Quote);
    assert PlainText(ps[1..]) by {
      forall i | 0 <= i < |ps[1..]|
        ensures ps[1..][i].Plain? && ps[1..][i].c != Quote
      {
        assert ps[1..][i] == Plain(s[1..][i]);
      }
    }
    UnparsePlains(s);
  }

  lemma MatchedStep(s: string, k: nat)
    requires s != [] && s[0] == Quote && IndexOf(s[1..], Quote) == Some(k)
    requires WellFormed(Pieces(s[k + 2..])) && Unparse(Pieces(s[k + 2..])) == s[k + 2..]
    ensures WellFormed(Pieces(s)) && Unparse(Pieces(s)) == s
  {
    var body := s[1..k + 1];
    var rest := s[k + 2..];
    assert s[1..][..k] == body;
    assert s[k + 1] == Quote by { assert s[1..][k] == s[k + 1]; }
    SplitAround(s, k);
    var ps := Pieces(s);
    assert ps == [Quoted(body)] + Pieces(rest);
    assert ps[1..] == Pieces(rest);
    assert Unparse(ps) == [Quote] + body + [Quote] + Unparse(Pieces(rest));
  }

  lemma SplitAround(s: string, k: nat)
    requires k + 2 <= |s|
    ensures s == [s[0]] + s[1..k + 1] + [s[k + 1]] + s[k + 2..]
  {
  }

  /** In a quote followed by a quote-free body and a quote, the first quote after the opening one closes it. */
  lemma ClosingQuote(b: string, rest: string)
    requires Quote !in b
    ensures IndexOf(b + [Quote] + rest, Quote) == Some(|b|)
  {
    var t := b + [Quote] + rest;
    assert t[|b|] == Quote;
    assert t[..|b|] == b;
    assert forall i :: 0 <= i < |b| ==> t[i] == b[i];
  }

  /** Every well-formed piece sequence is what the scan makes of the text it spells out. */
  lemma {:induction false} UnparseRoundTrip(ps: seq<Piece>)
    requires WellFormed(ps)
    ensures Pieces(Unparse(ps)) == ps
  {
    if ps != [] {
      match ps[0]
      case Quoted(b) =>
        UnparseRoundTrip(ps[1..]);
        QuotedHeadStep(ps, b);
      case Plain(c) =>
        if c == Quote {
          UnpairedHeadStep(ps);
        } else {
          UnparseRoundTrip(ps[1..]);
          PlainHeadStep(ps, c);
        }
    }
  }

  lemma QuotedHeadStep(ps: seq<Piece>, b: string)
    requires ps != [] && ps[0] == Quoted(b) && Quote !in b
    requires Pieces(Unparse(ps[1..])) == ps[1..]
    ensures Pieces(Unparse(ps)) == ps
  {
    var rest := Unparse(ps[1..]);
    assert Unparse(ps) == [Quote] + b + [Quote] + rest;
    PiecesQuotedHead(b, rest);
    assert ps == [Quoted(b)] + ps[1..];
  }

  /** A leading quoted literal is one match, and the scan carries on after its closing quote. */
  lemma PiecesQuotedHead(b: string, rest: string)
    requires Quote !in b
    ensures Pieces([Quote] + b + [Quote] + rest) == [Quoted(b)] + Pieces(rest)
  {
    var s := [Quote] + b + [Quote] + rest;
    var t := b + [Quote] + rest;
    assert s == [Quote] + t;
    assert s[1..] == t;
    ClosingQuote(b, rest);
    assert s[1..|b| + 1] == b by { assert t[..|b|] == b; }
    assert s[|b| + 2..] == rest by { assert t[|b| + 1..] == rest; }
    PiecesAtQuote(s, |b|);
  }

  /** A quote with a closing quote k characters further on starts a literal. */
  lemma PiecesAtQuote(s: string, k: nat)
    requires s != [] && s[0] == Quote && IndexOf(s[1..], Quote) == Some(k)
    ensures Pieces(s) == [Quoted(s[1..k + 1])] + Pieces(s[k + 2..])
  {
  }

  lemma UnpairedHeadStep(ps: seq<Piece>)
    requires ps != [] && ps[0] == Plain(Quote) && PlainText(ps[1..])
    ensures Pieces(Unparse(ps)) == ps
  {
    var s := Unparse(ps);
    PlainTextCounts(ps[1..]);
    assert s == [Quote] + Unparse(ps[1..]);
    assert s[1..] == Unparse(ps[1..]);
    assert IndexOf(s[1..], Quote) == None;
    assert Pieces(s) == Plains(s);
    PlainsOfUnparse(ps);
  }

  lemma PlainHeadStep(ps: seq<Piece>, c: char)
    requires ps != [] && ps[0] == Plain(c) && c != Quote
    requires Pieces(Unparse(ps[1..])) == ps[1..]
    ensures Pieces(Unparse(ps)) == ps
  {
    var s := Unparse(ps);
    assert s == [c] + Unparse(ps[1..]);
    assert s[1..] == Unparse(ps[1..]);
    assert Pieces(s) == [Plain(c)] + Pieces(s[1..]);
    assert ps == [Plain(c)] + ps[1..];
  }

  // ---------------------------------------------------------------------------
  // Counting.

  lemma {:induction false} QuoteCountUnparse(ps: seq<Piece>)
    requires WellFormed(ps)
    ensures QuoteCount(Unparse(ps)) == 2 * QuotedCount(ps) + PlainQuoteCount(ps)
  {
    if ps != [] {
      match ps[0]
      case Plain(c) =>
        QuoteCountAppend([c], Unparse(ps[1..]));
        if c == Quote {
          PlainTextCounts(ps[1..]);
          QuoteFreeCount(Unparse(ps[1..]));
        } else {
          QuoteCountUnparse(ps[1..]);
        }
      case Quoted(b) =>
        QuoteCountUnparse(ps[1..]);
        QuoteCountAppend([Quote] + b + [Quote], Unparse(ps[1..]));
        QuoteCountAppend([Quote] + b, [Quote]);
        QuoteCountAppend([Quote], b);
        QuoteFreeCount(b);
    }
  }

  lemma {:induction false} QuoteFreeCount(b: string)
    requires Quote !in b
    ensures QuoteCount(b) == 0
  {
    if b != [] {
      QuoteFreeCount(b[1..]);
    }
  }

  lemma {:induction false} WellFormedUnpaired(ps: seq<Piece>)
    requires WellFormed(ps)
    ensures PlainQuoteCount(ps) <= 1
  {
    if ps != [] {
      if ps[0] == Plain(Quote) {
        PlainTextCounts(ps[1..]);
      } else {
        WellFormedUnpaired(ps[1..]);
      }
    }
  }

  /**
   * The match count is the number of quote pairs: half the quote characters,
   * rounded down, since at most one quote is left unpaired.
   */
  lemma MatchCountIsHalf(s: string)
    ensures MatchCount(s) == QuoteCount(s) / 2
    ensures PlainQuoteCount(Pieces(s)) == QuoteCount(s) % 2
  {
    PiecesRoundTrip(s);
    QuoteCountUnparse(Pieces(s));
    WellFormedUnpaired(Pieces(s));
  }

  lemma {:induction false} QuoteCountSubstitute(ps: seq<Piece>, rep: string)
    ensures QuoteCount(Substitute(ps, rep)) == PlainQuoteCount(ps) + QuotedCount(ps) * QuoteCount(rep)
  {
    if ps != [] {
      QuoteCountSubstitute(ps[1..], rep);
      match ps[0]
      case Plain(c) =>
        QuoteCountAppend([c], Substitute(ps[1..], rep));
      case Quoted(_) =>
        QuoteCountAppend(rep, Substitute(ps[1..], rep));
        var q := QuotedCount(ps[1..]);
        assert QuotedCount(ps) == q + 1;
        assert (q + 1) * QuoteCount(rep) == q * QuoteCount(rep) + QuoteCount(rep);
    }
  }

  /**
   * Replacing every match by rep leaves the unpaired quote, if any, and adds
   * rep's quotes once per match.
   */
  lemma ReplacePairsQuotes(s: string, rep: string)
    ensures QuoteCount(ReplacePairs(s, rep)) == QuoteCount(s) % 2 + MatchCount(s) * QuoteCount(rep)
  {
    MatchCountIsHalf(s);
    QuoteCountSubstitute(Pieces(s), rep);
  }

  // ---------------------------------------------------------------------------
  // Locality of the scan.

  lemma {:induction false} WellFormedAppend(p: seq<Piece>, q: seq<Piece>)
    requires WellFormed(p) && WellFormed(q) && PlainQuoteCount(p) == 0
    ensures WellFormed(p + q)
  {
    if p != [] {
      assert (p + q)[0] == p[0];
      assert (p + q)[1..] == p[1..] + q;
      assert p[0] != Plain(Quote);
      WellFormedAppend(p[1..], q);
    } else {
      assert p + q == q;
    }
  }

  /** Once the quotes before a point are all paired, the scan of what follows starts afresh there. */
  lemma PiecesAppend(a: string, b: string)
    requires QuoteCount(a) % 2 == 0
    ensures Pieces(a + b) == Pieces(a) + Pieces(b)
  {
    PiecesRoundTrip(a);
    PiecesRoundTrip(b);
    MatchCountIsHalf(a);
    WellFormedAppend(Pieces(a), Pieces(b));
    UnparseAppend(Pieces(a), Pieces(b));
    UnparseRoundTrip(Pieces(a) + Pieces(b));
  }

  lemma ReplacePairsAppend(a: string, b: string, rep: string)
    requires QuoteCount(a) % 2 == 0
    ensures ReplacePairs(a + b, rep) == ReplacePairs(a, rep) + ReplacePairs(b, rep)
  {
    PiecesAppend(a, b);
    SubstituteAppend(Pieces(a), Pieces(b), rep);
  }

  /** A string with at most one quote has no match, so a replacement leaves it unchanged. */
  lemma NoPairs(s: string, rep: string)
    requires QuoteCount(s) <= 1
    ensures MatchCount(s) == 0
    ensures ReplacePairs(s, rep) == s
  {
    MatchCountIsHalf(s);
    PiecesRoundTrip(s);
    NoQuotedSubstitute(Pieces(s), rep);
  }

  lemma {:induction false} NoQuotedSubstitute(ps: seq<Piece>, rep: string)
    requires QuotedCount(ps) == 0
    ensures Substitute(ps, rep) == Unparse(ps)
  {
    if ps != [] {
      NoQuotedSubstitute(ps[1..], rep);
    }
  }

  /** One match of a literal body in the middle of a string, with the quotes before it paired. */
  lemma ReplaceOneLiteral(a: string, body: string, c: string, rep: string)
    requires QuoteCount(a) % 2 == 0 && Quote !in body
    ensures ReplacePairs(a + ([Quote] + body + [Quote] + c), rep) == ReplacePairs(a, rep) + rep + ReplacePairs(c, rep)
  {
    var t := [Quote] + body + [Quote] + c;
    ReplacePairsAppend(a, t, rep);
    PiecesQuotedHead(body, c);
    SubstituteQuotedHead(body, Pieces(c), rep);
  }

  lemma SubstituteQuotedHead(body: string, ps: seq<Piece>, rep: string)
    ensures Substitute([Quoted(body)] + ps, rep) == rep + Substitute(ps, rep)
  {
    assert ([Quoted(body)] + ps)[1..] == ps;
  }

  // ---------------------------------------------------------------------------
  // Rescanning a replacement.

  lemma {:induction false} UnparseWithBody(ps: seq<Piece>, b: string)
    ensures Unparse(WithBody(ps, b)) == Substitute(ps, [Quote] + b + [Quote])
  {
    if ps != [] {
      assert WithBody(ps, b)[1..] == WithBody(ps[1..], b);
      UnparseWithBody(ps[1..], b);
    }
  }

  lemma {:induction false} WellFormedWithBody(ps: seq<Piece>, b: string)
    requires WellFormed(ps) && Quote !in b
    ensures WellFormed(WithBody(ps, b))
  {
    if ps != [] {
      var qs := WithBody(ps, b);
      assert qs[1..] == WithBody(ps[1..], b);
      if ps[0] == Plain(Quote) {
        assert PlainText(qs[1..]) by {
          forall i | 0 <= i < |qs[1..]|
            ensures qs[1..][i].Plain? && qs[1..][i].c != Quote
          {
            assert qs[1..][i] == ps[1..][i];
          }
        }
      } else {
        WellFormedWithBody(ps[1..], b);
      }
    }
  }

  /**
   * Replacing each match by `'b'`, with b quote-free, keeps the shape of the
   * text: scanning the result finds the same unmatched characters and one match
   * where each old one was, now holding b.
   */
  lemma RescanReplacement(s: string, b: string)
    requires Quote !in b
    ensures Pieces(ReplacePairs(s, [Quote] + b + [Quote])) == WithBody(Pieces(s), b)
  {
    PiecesRoundTrip(s);
    WellFormedWithBody(Pieces(s), b);
    UnparseWithBody(Pieces(s), b);
    UnparseRoundTrip(WithBody(Pieces(s), b));
  }
}

=== FILE: results.dfy ===
/** Failure-carrying values: the model's stand-in for JavaScript exceptions and `null` matches. */
module Results {

  /** A value that may be absent, as a regular-expression `match` that returns `null`. */
  datatype Option<+T> = None | Some(value: T)

  /** The outcome of a host command: a payload, or the reason it stopped. */
  datatype Result<+T, +E> = Ok(value: T) | Err(error: E)
}

=== FILE: scenarios.dfy ===
/** Worked documents for the save handler's loop, at the level of trimmed lines. */
module Scenarios {
  import opened Results
  import opened Lines
  import opened Generator

  /**
   * A `Scenario` line that directly follows a step ends the previous walk, and
   * the loop steps past it: the second scenario gets no test.
   */
  lemma AdjacentScenarioIsSkipped()
    ensures var ls := ["Scenario: a", "Given b", "Scenario: c", "Given d", ""];
      |Scan(ls, 0)| == 1 && Scan(ls, 0)[0].header == 0 && Scan(ls, 0)[0].end == Some(2)
  {
    var ls := ["Scenario: a", "Given b", "Scenario: c", "Given d", ""];
    assert IsStepLine(ls[1]) by { assert "Given " <= ls[1]; }
    assert !InBlock(ls[2]) by { assert ls[2][0] == 'S'; }
    assert WriteSteps(ls, 2) == Stopped([], 2);
    assert WriteSteps(ls, 1) == Stopped(["Given b"], 2);
    assert Scan(ls, 0) == [BlockAt(ls, 0)] + Scan(ls, 3) by {
      ScanOpens(ls, 0);
    }
    assert !IsScenarioLine(ls[3]) by { assert ls[3][0] == 'G'; }
    ScanPasses(ls, 3);
    assert Scan(ls, 4) == [];
  }

  /**
   * A document whose last line is a step: the walk reads past the end, and the
   * handler throws after writing the opening and the call.
   */
  lemma TrailingStepThrows()
    ensures var bs := Scan(["Scenario: a", "Given b"], 0);
      |bs| == 1 && bs[0].end.None? && bs[0].steps == ["Given b"] && WalkThrew(bs)
  {
    var ls := ["Scenario: a", "Given b"];
    assert IsStepLine(ls[1]) by { assert "Given " <= ls[1]; }
    assert WriteSteps(ls, 1) == RanOff(["Given b"]);
    ScanOpens(ls, 0);
    assert WalkThrew(Scan(ls, 0)) by { assert Scan(ls, 0)[0].end.None?; }
  }
}

=== FILE: stub.dfy ===
/** The `extension.generateStep` command: a step-definition stub for the selected line. */
module StepStub {
  import opened Results
  import opened Text
  import opened Quotes
  import opened Lines

  /** Each quoted literal of a step becomes this in the method name. */
  const Placeholder: string := "X"

  /** The body each quoted literal gets in the step's regular expression. */
  const Wildcard: string := "(.*)"

  /** `'(.*)'`: a capture group between the literal's own quotes. */
  const CaptureGroup: string := [Quote] + Wildcard + [Quote]

  /**
   * `line.replace(/^.*? /, '')`: the text after the first space, or the whole
   * line when the pattern fails, which is when no space comes before the first
   * line terminator (exactly when the step type is missing too).
   */
  function StepText(line: string): (r: string)
    ensures HasStepType(line) ==> r == line[IndexOf(line, ' ').value + 1..]
    ensures !HasStepType(line) ==> r == line
  {
    var r := LazyReplace(line, " ", "");
    assert HasStepType(line) ==> r == line[IndexOf(line, ' ').value + 1..] by {
      LazySpaceIsFirstSpace(line);
      if HasStepType(line) {
        assert "" + line[LazyPrefix(line, " ").value..] == line[LazyPrefix(line, " ").value..];
      }
    }
    assert !HasStepType(line) ==> r == line by {
      LazySpaceIsFirstSpace(line);
    }
    r
  }

  /**
   * The exported name of the stub: every quoted literal becomes `X`, then every
   * space becomes `_`.
   */
  function MethodName(text: string): (r: string)
    ensures ' ' !in r
    ensures QuoteCount(r) == QuoteCount(text) % 2
  {
    var x := ReplacePairs(text, Placeholder);
    ReplacePairsQuotes(text, Placeholder);
    assert QuoteCount(Placeholder) == 0;
    ReplaceCharKeepsQuotes(x);
    ReplaceChar(x, ' ', '_')
  }

  lemma {:induction false} ReplaceCharKeepsQuotes(s: string)
    ensures QuoteCount(ReplaceChar(s, ' ', '_')) == QuoteCount(s)
  {
    if s != [] {
      ReplaceCharKeepsQuotes(s[1..]);
      assert ReplaceChar(s, ' ', '_')[1..] == ReplaceChar(s[1..], ' ', '_');
    }
  }

  /** The step's regular-expression text: every quoted literal becomes `'(.*)'`. */
  function PatternText(text: string): (r: string)
    ensures Pieces(r) == WithBody(Pieces(text), Wildcard)
    ensures MatchCount(r) == MatchCount(text)
    ensures QuoteCount(r) == QuoteCount(text)
  {
    RescanReplacement(text, Wildcard);
    QuotedCountWithBody(Pieces(text), Wildcard);
    ReplacePairsQuotes(text, CaptureGroup);
    CaptureGroupQuotes();
    MatchCountIsHalf(text);
    ReplacePairs(text, CaptureGroup)
  }

  lemma CaptureGroupQuotes()
    ensures QuoteCount(CaptureGroup) == 2
  {
    QuoteCountAppend([Quote] + Wildcard, [Quote]);
    QuoteCountAppend([Quote], Wildcard);
    QuoteFreeCount(Wildcard);
    assert QuoteCount([Quote]) == 1 by { assert [Quote][1..] == []; }
  }

  lemma {:induction false} QuotedCountWithBody(ps: seq<Piece>, b: string)
    ensures QuotedCount(WithBody(ps, b)) == QuotedCount(ps)
  {
    if ps != [] {
      assert WithBody(ps, b)[1..] == WithBody(ps[1..], b);
      QuotedCountWithBody(ps[1..], b);
    }
  }

  /** The loop building `argList`: `arg0` up to `arg{n-1}`, in order. */
  function ArgNames(n: nat): (r: seq<string>)
    ensures |r| == n
    ensures forall i :: 0 <= i < n ==> r[i] == "arg" + Decimal(i)
  {
    if n == 0 then [] else ArgNames(n - 1) + ["arg" + Decimal(n - 1)]
  }

  /** No two arguments share a name. */
  lemma ArgNamesDistinct(n: nat, i: nat, j: nat)
    requires i < n && j < n && i != j
    ensures ArgNames(n)[i] != ArgNames(n)[j]
  {
    DecimalInjective(i, j);
    var a := ArgNames(n)[i];
    var b := ArgNames(n)[j];
    assert a[3..] == Decimal(i) && b[3..] == Decimal(j);
  }

  /** The four parts the clipboard text is assembled from. */
  datatype Stub = Stub(name: string, stepType: string, pattern: string, args: seq<string>)

  /**
   * The pure body of `generateStep`, given the trimmed selected line and the
   * trimmed line below it. `None` where `getStepType` throws.
   *
   * The argument count comes from the whole line, keyword included, while the
   * name and the pattern come from the text after the first space.
   */
  function BuildStub(line: string, nextLine: string): (r: Option<Stub>)
    ensures r.Some? <==> StepType(line).Some?
    ensures r.Some? ==> r.value.stepType == StepType(line).value
    ensures r.Some? ==> |r.value.args| == QuoteCount(line) / 2 + (if "|" <= nextLine then 1 else 0)
    ensures r.Some? ==> forall i :: 0 <= i < |r.value.args| ==> r.value.args[i] == "arg" + Decimal(i)
    ensures r.Some? ==> r.value.name == MethodName(StepText(line))
    ensures r.Some? ==> ' ' !in r.value.name && QuoteCount(r.value.name) <= 1
    ensures r.Some? ==> Pieces(r.value.pattern) == WithBody(Pieces(StepText(line)), Wildcard)
  {
    match StepType(line)
    case None => None
    case Some(t) =>
      var text := StepText(line);
      var usesTable := IsTableLine(nextLine);
      MatchCountIsHalf(line);
      var argCount := MatchCount(line) + (if usesTable then 1 else 0);
      Some(Stub(MethodName(text), t, PatternText(text), ArgNames(argCount)))
  }

  /** The clipboard text: an exported arrow function registering the step. */
  function StubText(s: Stub): string {
    "export const " + s.name + " = " + s.stepType + " => { \n"
    + "   " + s.stepType + "(/" + s.pattern + "/, (" + Join(s.args, ",") + ") => { \n"
    + "   }); \n"
    + "}; \n"
  }

  /** Why the command produced no stub. */
  datatype StepCommandError =
    | NoLineBelow  // the selection is on the last line, and `lineAt` throws for the line below
    | NoStepType   // the selected line has no space, and `getStepType` throws

  /** `generateStep` on a document of raw lines with the selection starting on line sel. */
  function GenerateStep(doc: seq<string>, sel: nat): (r: Result<string, StepCommandError>)
    requires sel < |doc|
    ensures r == Err(NoLineBelow) <==> sel + 1 == |doc|
    ensures r == Err(NoStepType) <==> sel + 1 < |doc| && StepType(GetLine(doc, sel)).None?
    ensures r.Ok? ==> r.value == StubText(BuildStub(GetLine(doc, sel), GetLine(doc, sel + 1)).value)
  {
    if sel + 1 >= |doc| then Err(NoLineBelow)
    else match BuildStub(GetLine(doc, sel), GetLine(doc, sel + 1))
      case None => Err(NoStepType)
      case Some(s) => Ok(StubText(s))
  }

  // ---------------------------------------------------------------------------
  // Properties of the derived name and pattern.

  lemma ReplaceCharAppend(a: string, b: string)
    ensures ReplaceChar(a + b, ' ', '_') == ReplaceChar(a, ' ', '_') + ReplaceChar(b, ' ', '_')
  {
  }

  /**
   * The name ignores what a quoted literal holds: two steps that differ only
   * inside one literal (the quotes before it paired off) get the same name.
   */
  lemma MethodNameIgnoresLiterals(a: string, b1: string, b2: string, c: string)
    requires QuoteCount(a) % 2 == 0 && Quote !in b1 && Quote !in b2
    ensures MethodName(a + ([Quote] + b1 + [Quote] + c)) == MethodName(a + ([Quote] + b2 + [Quote] + c))
  {
    ReplaceOneLiteral(a, b1, c, Placeholder);
    ReplaceOneLiteral(a, b2, c, Placeholder);
  }

  /** A head with no quote and no space passes through the name derivation unchanged. */
  lemma MethodNameOfPrefix(head: string, rest: string)
    requires Quote !in head && ' ' !in head
    ensures MethodName(head + rest) == head + MethodName(rest)
  {
    QuoteFreeCount(head);
    ReplacePairsAppend(head, rest, Placeholder);
    NoPairs(head, Placeholder);
    var x := ReplacePairs(rest, Placeholder);
    ReplaceCharAppend(head, x);
    assert ReplaceChar(head, ' ', '_') == head;
  }

  /*
   * The defining equations of the name, read left to right: an empty text
   * gives an empty name, a space becomes `_`, a quoted literal becomes `X`,
   * a lone quote with no partner after it stays, and any other character is
   * kept (`MethodNameOfPrefix`).
   */

  lemma MethodNameEmpty()
    ensures MethodName("") == ""
  {
    assert ReplacePairs("", Placeholder) == "";
  }

  lemma MethodNameSpace(t: string)
    ensures MethodName(" " + t) == "_" + MethodName(t)
  {
    assert QuoteCount(" ") == 0;
    ReplacePairsAppend(" ", t, Placeholder);
    NoPairs(" ", Placeholder);
    ReplaceCharAppend(" ", ReplacePairs(t, Placeholder));
    assert ReplaceChar(" ", ' ', '_') == "_";
  }

  lemma MethodNameLiteral(b: string, t: string)
    requires Quote !in b
    ensures MethodName([Quote] + b + [Quote] + t) == Placeholder + MethodName(t)
  {
    LiteralHead(b, t, Placeholder);
    ReplaceCharAppend(Placeholder, ReplacePairs(t, Placeholder));
    assert ReplaceChar(Placeholder, ' ', '_') == Placeholder;
  }

  lemma LiteralHead(b: string, t: string, rep: string)
    requires Quote !in b
    ensures ReplacePairs([Quote] + b + [Quote] + t, rep) == rep + ReplacePairs(t, rep)
  {
    PiecesQuotedHead(b, t);
    SubstituteQuotedHead(b, Pieces(t), rep);
  }

  lemma MethodNameLoneQuote(t: string)
    requires Quote !in t
    ensures MethodName([Quote] + t) == [Quote] + ReplaceChar(t, ' ', '_')
  {
    QuoteFreeCount(t);
    QuoteCountAppend([Quote], t);
    NoPairs([Quote] + t, Placeholder);
    ReplaceCharAppend([Quote], t);
  }

  /** The pattern ignores literal contents the same way. */
  lemma PatternIgnoresLiterals(a: string, b1: string, b2: string, c: string)
    requires QuoteCount(a) % 2 == 0 && Quote !in b1 && Quote !in b2
    ensures PatternText(a + ([Quote] + b1 + [Quote] + c)) == PatternText(a + ([Quote] + b2 + [Quote] + c))
  {
    ReplaceOneLiteral(a, b1, c, CaptureGroup);
    ReplaceOneLiteral(a, b2, c, CaptureGroup);
  }

  /** Deriving a name from a derived name changes nothing. */
  lemma MethodNameIdempotent(text: string)
    ensures MethodName(MethodName(text)) == MethodName(text)
  {
    var m := MethodName(text);
    NoPairs(m, Placeholder);
    assert ReplaceChar(m, ' ', '_') == m;
  }

  lemma {:induction false} SubstituteWithBody(ps: seq<Piece>, b: string, rep: string)
    ensures Substitute(WithBody(ps, b), rep) == Substitute(ps, rep)
  {
    if ps != [] {
      assert WithBody(ps, b)[1..] == WithBody(ps[1..], b);
      SubstituteWithBody(ps[1..], b, rep);
    }
  }

  /** Deriving a pattern from a derived pattern changes nothing. */
  lemma PatternIdempotent(text: string)
    ensures PatternText(PatternText(text)) == PatternText(text)
  {
    SubstituteWithBody(Pieces(text), Wildcard, CaptureGroup);
  }

  /**
   * The pattern keeps every character outside the literals and every literal's
   * position: splitting it back into literals and other characters gives the
   * step text's split, with each literal now holding `(.*)`.
   */
  lemma PatternKeepsOutsideText(text: string, i: nat)
    requires i < |Pieces(text)|
    ensures |Pieces(PatternText(text))| == |Pieces(text)|
    ensures Pieces(text)[i].Plain? ==> Pieces(PatternText(text))[i] == Pieces(text)[i]
    ensures Pieces(text)[i].Quoted? ==> Pieces(PatternText(text))[i] == Quoted(Wildcard)
  {
  }
}

=== FILE: text.dfy ===
/** The JavaScript string built-ins the generator relies on, over `seq<char>`. */
module Text {
  import opened Results

  /**
   * ECMAScript WhiteSpace and LineTerminator code points: what
   * `String.prototype.trim` removes. Tab, line feed, vertical tab, form feed
   * and carriage return are U+0009 to U+000D.
   */
  predicate IsWhitespace(c: char) {
    if c <= ' ' then c == ' ' || '\t' <= c <= '\r'
    else '\U{00A0}' <= c && IsWideWhitespace(c)
  }

  /** The whitespace code points above U+0020. */
  predicate IsWideWhitespace(c: char) {
    || c == '\U{00A0}' || c == '\U{1680}' || ('\U{2000}' <= c <= '\U{200A}')
    || c == '\U{2028}' || c == '\U{2029}' || c == '\U{202F}' || c == '\U{205F}'
    || c == '\U{3000}' || c == '\U{FEFF}'
  }

  /** The characters the regular-expression `.` does not match. */
  predicate IsLineTerminator(c: char) {
    c == '\n' || c == '\r' || c == '\U{2028}' || c == '\U{2029}'
  }

  /** No character of s[a..b] is a line terminator, so `.*` can run across it. */
  predicate NoTerminator(s: string, a: nat, b: nat)
    requires a <= b <= |s|
  {
    forall t :: a <= t < b ==> !IsLineTerminator(s[t])
  }

  /** `s.endsWith(p)`; `p <= s` is `s.startsWith(p)`. */
  predicate EndsWith(s: string, p: string) {
    |p| <= |s| && s[|s| - |p|..] == p
  }

  lemma EndsWithAppend(a: string, b: string)
    ensures EndsWith(a + b, b)
  {
    assert (a + b)[|a|..] == b;
  }

  lemma PrefixOfConcat<T>(a: seq<T>, b: seq<T>)
    ensures a <= a + b
  {
    assert (a + b)[..|a|] == a;
  }

  lemma NotInAppend(a: string, b: string, c: char)
    requires c !in a && c !in b
    ensures c !in a + b
  {
  }

  predicate IsTrimmed(s: string) {
    s == [] || (!IsWhitespace(s[0]) && !IsWhitespace(s[|s| - 1]))
  }

  /** `String.prototype.trimStart`: drops the leading whitespace and nothing else. */
  function TrimStart(s: string): (r: string)
    ensures |r| <= |s| && r == s[|s| - |r|..]
    ensures forall i :: 0 <= i < |s| - |r| ==> IsWhitespace(s[i])
    ensures r != [] ==> !IsWhitespace(r[0])
  {
    if s != [] && IsWhitespace(s[0]) then TrimStart(s[1..]) else s
  }

  /** `String.prototype.trimEnd`: drops the trailing whitespace and nothing else. */
  function TrimEnd(s: string): (r: string)
    ensures |r| <= |s| && r == s[..|r|]
    ensures forall i :: |r| <= i < |s| ==> IsWhitespace(s[i])
    ensures r != [] ==> !IsWhitespace(r[|r| - 1])
  {
    if s != [] && IsWhitespace(s[|s| - 1]) then TrimEnd(s[..|s| - 1]) else s
  }

  /** `String.prototype.trim`: whitespace removed at both ends. */
  function Trim(s: string): (r: string)
    ensures IsTrimmed(r)
    ensures |r| <= |s|
    ensures IsTrimmed(s) ==> r == s
  {
    TrimEnd(TrimStart(s))
  }

  /** A trailing space makes no difference to `trim`. */
  lemma TrimTrailingSpace(t: string)
    ensures Trim(t + [' ']) == Trim(t)
  {
    TrimStartSpace(t);
    if TrimStart(t) != [] {
      TrimEndSpace(TrimStart(t));
    }
  }

  lemma {:induction false} TrimStartSpace(t: string)
    ensures TrimStart(t + [' ']) == if TrimStart(t) == [] then [] else TrimStart(t) + [' ']
  {
    var u := t + [' '];
    if t == [] {
      assert u == [' '] && u[1..] == [];
    } else if IsWhitespace(t[0]) {
      assert u[0] == t[0] && u[1..] == t[1..] + [' '];
      assert TrimStart(u) == TrimStart(t[1..] + [' ']);
      assert TrimStart(t) == TrimStart(t[1..]);
      TrimStartSpace(t[1..]);
    } else {
      assert u[0] == t[0];
      assert TrimStart(u) == u && TrimStart(t) == t;
    }
  }

  lemma TrimEndSpace(u: string)
    ensures TrimEnd(u + [' ']) == TrimEnd(u)
  {
    assert (u + [' '])[..|u|] == u;
  }

  /** r is s[a..a + |r|], and everything of s around it is whitespace. */
  predicate WhitespaceAround(s: string, a: nat, r: string) {
    && a + |r| <= |s|
    && r == s[a..a + |r|]
    && (forall i :: 0 <= i < a ==> IsWhitespace(s[i]))
    && (forall i :: a + |r| <= i < |s| ==> IsWhitespace(s[i]))
  }

  /** The length of the leading whitespace of s. */
  function Lead(s: string): (n: nat)
    ensures n <= |s|
    ensures forall i :: 0 <= i < n ==> IsWhitespace(s[i])
    ensures n < |s| ==> !IsWhitespace(s[n])
  {
    |s| - |TrimStart(s)|
  }

  /** What `trim` keeps is the infix of s between a whitespace prefix and a whitespace suffix. */
  lemma TrimInfix(s: string)
    ensures WhitespaceAround(s, Lead(s), Trim(s))
  {
    var t := TrimStart(s);
    var r := TrimEnd(t);
    assert Trim(s) == r;
    SuffixOfPrefix(s, t, r);
  }

  /** r, a prefix of t, which is s less a whitespace prefix, followed in t by whitespace only. */
  lemma SuffixOfPrefix(s: string, t: string, r: string)
    requires |t| <= |s| && t == s[|s| - |t|..]
    requires forall i :: 0 <= i < |s| - |t| ==> IsWhitespace(s[i])
    requires |r| <= |t| && r == t[..|r|]
    requires forall i :: |r| <= i < |t| ==> IsWhitespace(t[i])
    ensures WhitespaceAround(s, |s| - |t|, r)
  {
    var a := |s| - |t|;
    forall i | a + |r| <= i < |s|
      ensures IsWhitespace(s[i])
    {
      assert s[i] == t[i - a];
    }
  }

  /** `toLowerCase` on the ASCII letters; every other character is kept. */
  function LowerChar(c: char): (d: char)
    ensures 'A' <= c <= 'Z' ==> 'a' <= d <= 'z' && d as int - c as int == 32
    ensures !('A' <= c <= 'Z') ==> d == c
  {
    if 'A' <= c <= 'Z' then (c as int + 32) as char else c
  }

  function ToLower(s: string): (r: string)
    ensures |r| == |s|
    ensures forall i :: 0 <= i < |s| ==> r[i] == LowerChar(s[i])
  {
    seq(|s|, i requires 0 <= i < |s| => LowerChar(s[i]))
  }

  /** `s.indexOf(c)`, with `None` for JavaScript's -1. */
  function IndexOf(s: string, c: char): (r: Option<nat>)
    ensures r.None? <==> c !in s
    ensures r.Some? ==> r.value < |s| && s[r.value] == c && c !in s[..r.value]
  {
    if s == [] then None
    else if s[0] == c then Some(0)
    else match IndexOf(s[1..], c)
      case None => None
      case Some(k) =>
        assert s[..k + 1] == [s[0]] + s[1..][..k];
        Some(k + 1)
  }

  predicate OccursAt(s: string, needle: string, j: nat) {
    j + |needle| <= |s| && s[j..j + |needle|] == needle
  }

  function FindFrom(s: string, needle: string, j: nat): (r: Option<nat>)
    requires j <= |s|
    decreases |s| - j
    ensures r.Some? ==> j <= r.value && OccursAt(s, needle, r.value)
    ensures r.Some? ==> forall k :: j <= k < r.value ==> !OccursAt(s, needle, k)
    ensures r.None? ==> forall k :: j <= k <= |s| ==> !OccursAt(s, needle, k)
  {
    if OccursAt(s, needle, j) then Some(j)
    else if j == |s| then None
    else FindFrom(s, needle, j + 1)
  }

  /** The first occurrence of needle in s, which is where a string-pattern `replace` acts. */
  function Find(s: string, needle: string): (r: Option<nat>)
    ensures r.Some? ==>
      && OccursAt(s, needle, r.value)
      && forall k :: 0 <= k < r.value ==> !OccursAt(s, needle, k)
    ensures r.None? ==> forall k :: 0 <= k <= |s| ==> !OccursAt(s, needle, k)
  {
    FindFrom(s, needle, 0)
  }

  /** `s.replace(needle, rep)` with a string pattern: only the first occurrence is replaced. */
  function ReplaceFirst(s: string, needle: string, rep: string): (r: string)
    ensures Find(s, needle).None? ==> r == s
    ensures Find(s, needle).Some? ==> var j := Find(s, needle).value;
      r == s[..j] + rep + s[j + |needle|..]
  {
    match Find(s, needle)
    case None => s
    case Some(j) => s[..j] + rep + s[j + |needle|..]
  }

  /** The needle occurs nowhere in s. */
  predicate Absent(s: string, needle: string) {
    forall k :: 0 <= k <= |s| ==> !OccursAt(s, needle, k)
  }

  /** j is where the needle first occurs in s. */
  predicate FirstAt(s: string, needle: string, j: nat) {
    j <= |s| && OccursAt(s, needle, j) && forall k :: 0 <= k < j ==> !OccursAt(s, needle, k)
  }

  /** There is at most one first occurrence. */
  lemma FirstAtUnique(s: string, needle: string, i: nat, j: nat)
    requires FirstAt(s, needle, i) && FirstAt(s, needle, j)
    ensures i == j
  {
  }

  /**
   * What a string-pattern `replace` does, in terms of occurrences alone: with
   * no occurrence the text is unchanged, and otherwise the first occurrence,
   * wherever it is, is swapped.
   */
  lemma ReplaceFirstCases(s: string, needle: string, rep: string)
    ensures Absent(s, needle) ==> ReplaceFirst(s, needle, rep) == s
    ensures forall j :: 0 <= j && FirstAt(s, needle, j) ==> ReplaceFirst(s, needle, rep) == s[..j] + rep + s[j + |needle|..]
  {
    var f := Find(s, needle);
    if f.Some? {
      assert FirstAt(s, needle, f.value);
      forall j | 0 <= j && FirstAt(s, needle, j)
        ensures ReplaceFirst(s, needle, rep) == s[..j] + rep + s[j + |needle|..]
      {
        FirstAtUnique(s, needle, j, f.value);
      }
    } else {
      assert Absent(s, needle);
    }
  }

  /** r is s with its first occurrence of needle removed, or s itself when there is none. */
  predicate DropsFirst(s: string, needle: string, r: string) {
    && (Absent(s, needle) ==> r == s)
    && forall j :: 0 <= j <= |s| && FirstAt(s, needle, j) ==> r == s[..j] + s[j + |needle|..]
  }

  /** `replace(needle, '')` removes the first occurrence of the needle, wherever it is. */
  lemma ReplaceFirstDrops(s: string, needle: string)
    ensures DropsFirst(s, needle, ReplaceFirst(s, needle, ""))
  {
    ReplaceFirstCases(s, needle, "");
    forall j | 0 <= j <= |s| && FirstAt(s, needle, j)
      ensures ReplaceFirst(s, needle, "") == s[..j] + s[j + |needle|..]
    {
      assert s[..j] + "" == s[..j];
    }
  }

  /** A needle that starts s is the first occurrence, so `replace` swaps that prefix. */
  lemma ReplaceFirstAtStart(s: string, needle: string, rep: string)
    requires needle <= s
    ensures ReplaceFirst(s, needle, rep) == rep + s[|needle|..]
  {
    assert OccursAt(s, needle, 0);
    assert s[..0] + rep == rep;
  }

  /** Replacing the first occurrence of a needle brings in no character that neither s nor the replacement holds. */
  lemma ReplaceFirstKeepsOut(s: string, needle: string, rep: string, c: char)
    requires c !in s && c !in rep
    ensures c !in ReplaceFirst(s, needle, rep)
  {
    var f := Find(s, needle);
    if f.Some? {
      var j := f.value;
      var r := s[..j] + rep + s[j + |needle|..];
      forall i | 0 <= i < |r|
        ensures r[i] != c
      {
        if i < j {
          assert r[i] == s[i];
        } else if i < j + |rep| {
          assert r[i] == rep[i - j];
        } else {
          assert r[i] == s[i - |rep| + |needle|];
        }
      }
    }
  }

  /** `s.replace(/x/g, y)` for a one-character pattern x. */
  function ReplaceChar(s: string, x: char, y: char): (r: string)
    ensures |r| == |s|
    ensures forall i :: 0 <= i < |s| ==> r[i] == (if s[i] == x then y else s[i])
  {
    seq(|s|, i requires 0 <= i < |s| => if s[i] == x then y else s[i])
  }

  /** End of the match of `/^.*?needle/` when the lazy `.*?` has already consumed s[..j]. */
  function LazyPrefixFrom(s: string, needle: string, j: nat): (r: Option<nat>)
    requires j <= |s| && NoTerminator(s, 0, j)
    decreases |s| - j
    ensures r.Some? ==>
      && j + |needle| <= r.value <= |s|
      && OccursAt(s, needle, r.value - |needle|)
      && NoTerminator(s, 0, r.value - |needle|)
      && forall k :: j <= k < r.value - |needle| ==> !OccursAt(s, needle, k)
    ensures r.None? ==> forall k :: j <= k <= |s| && OccursAt(s, needle, k) ==> !NoTerminator(s, 0, k)
  {
    if OccursAt(s, needle, j) then Some(j + |needle|)
    else if j < |s| && !IsLineTerminator(s[j]) then LazyPrefixFrom(s, needle, j + 1)
    else None
  }

  /**
   * End of the match of the anchored lazy pattern `/^.*?needle/`: the shortest prefix
   * of s ending in needle, provided no line terminator comes before that needle.
   */
  function LazyPrefix(s: string, needle: string): (r: Option<nat>)
    ensures r.Some? <==> exists k :: 0 <= k <= |s| && OccursAt(s, needle, k) && NoTerminator(s, 0, k)
    ensures r.Some? ==>
      && |needle| <= r.value <= |s|
      && OccursAt(s, needle, r.value - |needle|)
      && NoTerminator(s, 0, r.value - |needle|)
      && forall k :: 0 <= k < r.value - |needle| ==> !OccursAt(s, needle, k)
  {
    LazyPrefixFrom(s, needle, 0)
  }

  /** `s.replace(/^.*?needle/, rep)`: the matched prefix becomes rep; no match leaves s as it is. */
  function LazyReplace(s: string, needle: string, rep: string): (r: string)
    ensures LazyPrefix(s, needle).None? ==> r == s
    ensures LazyPrefix(s, needle).Some? ==> r == rep + s[LazyPrefix(s, needle).value..]
  {
    match LazyPrefix(s, needle)
    case None => s
    case Some(e) => rep + s[e..]
  }

  function DigitChar(d: nat): (c: char)
    requires d < 10
    ensures '0' <= c <= '9' && c as int - '0' as int == d
  {
    ('0' as int + d) as char
  }

  /** `String(n)` for a non-negative integer: its decimal digits, no leading zero. */
  function Decimal(n: nat): (r: string)
    ensures |r| >= 1
    ensures forall i :: 0 <= i < |r| ==> '0' <= r[i] <= '9'
    ensures r[0] == '0' ==> n == 0
  {
    if n < 10 then [DigitChar(n)] else Decimal(n / 10) + [DigitChar(n % 10)]
  }

  /** The number a string of decimal digits denotes. */
  function DecimalValue(s: string): nat
    requires forall i :: 0 <= i < |s| ==> '0' <= s[i] <= '9'
  {
    if s == [] then 0 else 10 * DecimalValue(s[..|s| - 1]) + (s[|s| - 1] as int - '0' as int)
  }

  lemma {:induction false} DecimalRoundTrip(n: nat)
    ensures DecimalValue(Decimal(n)) == n
  {
    if n >= 10 {
      DecimalRoundTrip(n / 10);
      var r := Decimal(n);
      assert r[..|r| - 1] == Decimal(n / 10);
    }
  }

  /** Distinct numbers print differently. */
  lemma DecimalInjective(m: nat, n: nat)
    requires m != n
    ensures Decimal(m) != Decimal(n)
  {
    DecimalRoundTrip(m);
    DecimalRoundTrip(n);
  }

  /** `Array.prototype.join(sep)`, which is also what an array's `toString` does with sep ",". */
  function Join(xs: seq<string>, sep: string): string {
    if xs == [] then ""
    else if |xs| == 1 then xs[0]
    else xs[0] + sep + Join(xs[1..], sep)
  }
}
